=== FILE: README.md ===
# olinguito schema translator — a Dafny model

olinguito turns the parameter annotations of a Python function into a JSON
Schema object, so that the function can be published as a "tool" and later
called by name. This project models its core in Dafny and proves properties
of the model:

- `schema.dfy` (module `Schema`): `to_schema_type`, the recursive translator
  from a type descriptor to a JSON-Schema fragment, with its helpers for
  `Literal`, unions, `TypedDict` records and `Annotated` descriptions.
- `schema_facts.dfy` (module `SchemaFacts`): one group of lemmas per branch
  of the translator. The loop branches (fields, alternatives, the union
  merge) are related to independent reference statements: every element
  translates, the first failing element's error, the last alternative
  having a key. The single-step branches (`ListSpec`, `AnnotatedSpec`,
  `UnsupportedRaises`, `BareListRaises`, `SameMarksSameTranslation`) state
  the branch's result directly in terms of the translation of its parts.
- `generating.dfy` (module `Generating`): `generate_json_schema`, the object
  schema of a whole parameter list.
- `registry.dfy` (module `Registry`): the `Mapping` name table. This covers
  construction from wrappers, lookup by name and iteration.
- `descriptors.dfy` (module `Descriptors`): the descriptor datatype that
  stands in for Python's type objects, with `WellFormed` for the conditions
  Python's type constructors guarantee (non-empty unions, distinct field
  names), and `StripAnnotations`, the effect of reading a `TypedDict`'s
  field types as type hints.
- `results.dfy` (module `Results`): `Option`, `Result`, and the four
  exception kinds raised (`TypeError`, `ValueError`, `IndexError`,
  `KeyError`).

Python reflection is replaced by data. A descriptor `Desc` is one of:

- the primitives `Int`, `Float`, `Str`, `Bool` and `NoneType` (for `types.NoneType`);
- `Literal(values)`, `List(elem)`, `Union(alts)`, `Record(fields)`;
- `BareList`, for `typing.List` without an element type;
- `Annotated(base, metadata)`;
- `Unsupported`, for any other annotation.

A fragment (`Fragment`) is the `_SchemaType` dict. It has a `type` that is a
single keyword or a list of keywords, and six optional keys. `properties` is
kept as an ordered sequence, so declaration order can be stated.

The central invariant is `Schema.Shaped`, which `Schema.Translate` promises
for every fragment it returns, at every depth:

- `properties` and `required` are both present or both absent;
- `required` lists the property names, in order, without repetition;
- `additionalProperties` is present, and `false`, exactly alongside
  `properties`;
- an `enum` is non-empty and sits beside one single keyword among
  integer, string and boolean, and every member has that keyword's type.

Functions are deterministic in Dafny, so translating the same descriptor
twice gives equal fragments by construction.

Four edge cases follow the code:

- Python builds the empty `Literal[()]`. Its set of value types is empty,
  so both type checks pass and reading `values[0]` raises `IndexError`
  (olinguito/schema.py:62-68); `Schema.TranslateLiteral` returns that
  error.
- `olinguito/mapping.py` defines no membership, length or truthiness for the
  name table, so they are not modelled.
- Only `types.NoneType` maps to null (olinguito/schema.py:50). The object
  `None` matches no branch and raises `TypeError` (olinguito/schema.py:58).
  `inspect.signature` leaves a parameter annotated `x: None` as that object,
  as does the element of a builtin `list[None]`, so such descriptors are
  given as `Unsupported` and generation fails, as
  `Generating.UnannotatedParameterFails` shows for an unsupported parameter.
  Inside a union, and in a `TypedDict` field read by `get_type_hints`,
  `None` is already `types.NoneType`.
- A `TypedDict`'s field types are read with `typing.get_type_hints`
  (olinguito/schema.py:101), which drops `Annotated` at every depth: a
  field's description mark is lost, and two marks on a field do not raise.
  `Schema.Translate` strips field types the same way before translating
  them.

## Model

| member | source | states |
|---|---|---|
| `Schema.Translate` | olinguito/schema.py:37-58 | every fragment returned, records whose field types have been stripped of `Annotated` included, satisfies the shape invariant: properties/required co-occur, required is the property names in order without repetition, additionalProperties is false exactly alongside properties, and enum only sits beside a single integer/string/boolean keyword matching every member; at every depth |
| `Schema.ObjectFragment` | olinguito/schema.py:104-109 | the object fragment built from properties with distinct names and well-shaped fragments is itself well shaped |
| `Schema.TranslateLiteral` | olinguito/schema.py:61-70 | a literal's fragment, when produced, satisfies the shape invariant: its enum is non-empty and every value has the fragment's single keyword |
| `Schema.Marks` | olinguito/schema.py:114 | there are never more marks than metadata items |
| `Schema.MarksCount` | olinguito/schema.py:114 | the marks are exactly as many as the description items among the metadata |
| `Schema.MarkCountStep` | olinguito/schema.py:114 | the count of description items goes up by one exactly for a leading description mark |
| `Schema.Tags` | olinguito/schema.py:74-82 | one keyword per alternative, each alternative's own, in order |
| `Schema.Structured` | olinguito/schema.py:83-84 | every kept alternative is an input alternative with properties or items, every such alternative is kept, and the list never grows |
| `SchemaFacts.StructuredFilter` | olinguito/schema.py:83-84 | the kept alternatives distribute over concatenation, and a single alternative is kept exactly when it has properties or items: the order-preserving filter |
| `Schema.TranslateAlternatives` | olinguito/schema.py:76-82 | on success there is one fragment per alternative, each with a single keyword and well shaped |
| `Schema.TranslateFields` | olinguito/schema.py:99-103 | on success the property names are the field names in declared order, and every property's fragment is well shaped |
| `Schema.Absorb` | olinguito/schema.py:87-94 | copying one alternative's properties/required/additionalProperties/items over the accumulated fragment keeps it well shaped |
| `Schema.Carry` | olinguito/schema.py:86-94 | the copy loop keeps the fragment well shaped and never touches `type`, `enum` or `description` |
| `Schema.MergeUnion` | olinguito/schema.py:85-95 | the merged union fragment is well shaped |
| `Schema.Describe` | olinguito/schema.py:118 | adding a description mark to a well-shaped fragment keeps it well shaped |
| `Schema.PrimitiveTag` | olinguito/schema.py:38-51 | each primitive Python type has its own keyword, in both directions (integer exactly for int, number for float, string for str, boolean for bool, null for `types.NoneType`), never object or array |
| `Descriptors.TypeOf` | olinguito/schema.py:62-68 | `type(v)` of a literal value is int, str or bool for those values, with a bool kept apart from an int, and anything else is a type the translator does not support |
| `SchemaFacts.PrimitiveSpec` | olinguito/schema.py:38-51 | int, float, str, bool and `types.NoneType` map to integer, number, string, boolean and null; each result has exactly one keyword and no other key; distinct primitives give distinct fragments |
| `SchemaFacts.UnsupportedRaises` | olinguito/schema.py:58 | a descriptor no branch recognises raises TypeError, with no fallback fragment |
| `SchemaFacts.LiteralSpec` | olinguito/schema.py:61-70 | a literal translates iff it has values, all sharing the first value's Python type, and that type is int, str or bool; the result is that type's fragment plus enum = the values in declaration order; values that fail the check raise TypeError, and no values at all IndexError |
| `SchemaFacts.EmptyLiteralRaises` | olinguito/schema.py:62-68 | `Literal[()]` passes both type checks and raises IndexError at the first-value read |
| `SchemaFacts.LiteralBoolIsNotInt` | olinguito/schema.py:62-67 | `Literal[True]` is a boolean enum; `Literal[1, True]` and `Literal["foo", 1, False]` raise TypeError |
| `SchemaFacts.BareListRaises` | olinguito/schema.py:48-49 | `typing.List` without an element type raises IndexError |
| `SchemaFacts.ListSpec` | olinguito/schema.py:48-49 | a list translates iff its element does, to type array with items = the element's fragment and no other key; an element error propagates unchanged |
| `SchemaFacts.FieldsOk` | olinguito/schema.py:101-102 | the field loop succeeds iff every field's descriptor translates |
| `SchemaFacts.FieldsValues` | olinguito/schema.py:101-103 | a successful field loop gives one property per field, in declared order, holding that field's name and fragment |
| `SchemaFacts.FieldAt` | olinguito/schema.py:101-103 | property `k` of a successful field loop holds field `k`'s name and fragment, and that field translates |
| `SchemaFacts.FieldsErr` | olinguito/schema.py:101-102 | a failing field loop fails with the error of the first field whose descriptor fails, every earlier field translating |
| `SchemaFacts.FieldsSpec` | olinguito/schema.py:101-103 | the field loop succeeds iff every field translates; it then gives one property per field, in order, holding that field's fragment; otherwise it fails with the first failing field's error |
| `SchemaFacts.RecordSpec` | olinguito/schema.py:98-109 | a record translates iff every field's type, stripped of `Annotated`, translates; it is then type object with one property per field in declared order holding the stripped type's fragment, required = all field names in that order (length = field count), additionalProperties false and no other key; otherwise it fails with the first failing stripped field's error |
| `SchemaFacts.FieldMarksIgnored` | olinguito/schema.py:101-102 | wrapping one field's type in `Annotated`, with any metadata (two description marks included), leaves the record well formed and its translation unchanged |
| `SchemaFacts.SameHintsSameRecord` | olinguito/schema.py:98-109 | two records whose fields have the same type hints translate alike |
| `SchemaFacts.AlternativesOk` | olinguito/schema.py:76-82 | the alternatives loop succeeds iff every alternative translates to a single keyword |
| `SchemaFacts.AlternativesValues` | olinguito/schema.py:76-82 | a successful alternatives loop yields each alternative's own fragment, in order, one per alternative |
| `SchemaFacts.AlternativesErr` | olinguito/schema.py:76-82 | a failing alternatives loop fails with what the first stopping alternative raises: its own error, or TypeError when its type is a list |
| `SchemaFacts.AlternativesSpec` | olinguito/schema.py:76-82 | the alternatives loop succeeds iff every alternative translates to a single keyword, yielding each alternative's fragment in order; otherwise it fails with the first offending alternative's error, or TypeError when that alternative's type is a list |
| `SchemaFacts.LastWinsStep` | olinguito/schema.py:86-94 | one override step of the copy loop keeps the "last alternative having the key wins" reference |
| `SchemaFacts.CarryStep` | olinguito/schema.py:83-94 | adding one alternative overrides exactly the copied keys it has; an alternative with neither properties nor items changes nothing |
| `SchemaFacts.CarryLastWins` | olinguito/schema.py:83-94 | after the copy loop, each of properties, required, additionalProperties and items equals that of the last alternative (among all of them) having it, or is absent when none has it |
| `SchemaFacts.MergeUnionSpec` | olinguito/schema.py:73-95 | the union fragment's type lists the alternatives' keywords in order, same length, duplicates kept; enum and description are never carried over; the four structural keys follow "last alternative wins" |
| `SchemaFacts.UnionSpec` | olinguito/schema.py:73-95 | a union translates iff every alternative translates to a single keyword; it then has the list of their keywords in order, no enum or description, and the structural keys of the last alternative having each; otherwise it fails with the first offending alternative's error |
| `SchemaFacts.TwoAlternatives` | olinguito/schema.py:74-85 | a union of two primitives has type = the list of both keywords, in order |
| `SchemaFacts.UnionKeepsDuplicates` | olinguito/schema.py:74-85 | keywords are not deduplicated: the descriptor `Union([Int, Int])` and `Annotated[int, m] \| int` (two alternatives Python keeps apart) both give ["integer", "integer"]; `str \| None` gives ["string", "null"] |
| `SchemaFacts.SameTranslationsSameAlternatives` | olinguito/schema.py:76-82 | the union loop reads alternatives only through their translations: alternatives translating alike, position by position, give the same result |
| `SchemaFacts.AnnotatedDuplicate` | olinguito/schema.py:74-85 | a primitive annotated without a description mark, followed by the same primitive, gives that primitive's keyword twice |
| `SchemaFacts.NestedUnionRaises` | olinguito/schema.py:79-80 | a primitive followed by an alternative that is itself a translatable union, whose type is therefore a list, raises TypeError |
| `SchemaFacts.AnnotatedSpec` | olinguito/schema.py:112-120 | more than one description mark raises ValueError before the base is translated; exactly one adds the description to the base fragment, with the base's own keys winning; none gives the base fragment unchanged |
| `SchemaFacts.MarksAppend` | olinguito/schema.py:114 | the marks of concatenated metadata are the concatenated marks |
| `SchemaFacts.MarksSpec` | olinguito/schema.py:114 | a text is among the marks iff a description mark with that text is in the metadata |
| `SchemaFacts.OtherMetaNoMark` | olinguito/schema.py:114 | inserting non-description metadata anywhere leaves the list of marks unchanged |
| `SchemaFacts.SameMarksSameTranslation` | olinguito/schema.py:112-120 | two metadata lists with the same marks give the same translation: metadata is read only through its marks |
| `SchemaFacts.OtherMetaIgnored` | olinguito/schema.py:114 | inserting non-description metadata anywhere leaves the translation unchanged |
| `SchemaFacts.AnnotatedExamples` | olinguito/schema.py:112-120 | `Annotated[int, description("foo"), "bar"]` is integer with description "foo"; `Annotated[int, "bar"]` is integer; two description marks raise ValueError |
| `SchemaFacts.MergedKeyFollowsTag` | olinguito/schema.py:86-94 | when each alternative has a key exactly when its keyword is a given one, the last-wins merge of the key is present exactly when that keyword is in the union's type |
| `SchemaFacts.UnionTypeKeys` | olinguito/schema.py:83-95 | the union merge keeps items present exactly when array is among the type keywords, and properties exactly when object is |
| `SchemaFacts.KeysFollowType` | olinguito/schema.py:37-120 | every translated fragment has items exactly when array is among its type keywords, and properties exactly when object is, at the top level of unions and descriptions too |
| `Descriptors.DistinctNamesAsStrings` | olinguito/schema.py:99-103 | fields have distinct names exactly when their name sequence has no repeated string |
| `Descriptors.StripAnnotations` | olinguito/schema.py:101 | stripping the hint never makes a descriptor larger |
| `Descriptors.StripAll` | olinguito/schema.py:101 | the union case of the strip: one stripped alternative per alternative, in order, never larger |
| `Descriptors.StripFields` | olinguito/schema.py:101 | the stripped fields keep their names and order, each type stripped of `Annotated` |
| `Descriptors.StripWellFormed` | olinguito/schema.py:101 | a well-formed hint stays well formed once stripped |
| `Descriptors.StripFieldsWellFormed` | olinguito/schema.py:101 | the stripped field types of well-formed fields are well formed |
| `Descriptors.StripLeavesNone` | olinguito/schema.py:101 | no `Annotated` is left within reach of the strip after it |
| `Descriptors.StripKeepsUnannotated` | olinguito/schema.py:101 | a hint without `Annotated` within reach is unchanged by the strip |
| `Descriptors.StripIdempotent` | olinguito/schema.py:101 | stripping twice is stripping once |
| `Descriptors.MarkedFieldStrips` | olinguito/schema.py:101 | wrapping one field's type in `Annotated` does not change the stripped fields |
| `Generating.GenerateJsonSchema` | olinguito/generating.py:15-27 | the result has type object and additionalProperties false; required has one name per parameter, the parameter names in declaration order, distinct, and equal to the property names |
| `Generating.GenerateSpec` | olinguito/generating.py:19-21 | generation succeeds iff every parameter's descriptor translates; each property is then the parameter's name with the translator's fragment for it; otherwise it fails with the first failing parameter's error and no partial schema |
| `Generating.NoParameters` | olinguito/generating.py:17-27 | no parameters give type object, empty properties, empty required, additionalProperties false |
| `Generating.OptionalValueIsRequired` | olinguito/generating.py:19-21 | a parameter typed `t \| None` for a primitive `t` never makes generation fail, and its name is still listed in required at its own position: optional values are not optional parameters |
| `Generating.UnannotatedParameterFails` | olinguito/generating.py:19-20 | an unannotated parameter (such as `self` of an unbound method) makes generation fail with TypeError |
| `Registry.Put` | olinguito/mapping.py:13 | storing a wrapper under its name keeps names distinct; an existing name keeps its position and takes the new wrapper; a new name is appended |
| `Registry.PutIndex` | olinguito/mapping.py:13 | position by position, storing a wrapper replaces the one stored under its name and keeps every other; a new name makes the table one longer, with the wrapper last |
| `Registry.Insert` | olinguito/mapping.py:13 | the table the comprehension builds has distinct names (its contents are pinned by `Registry.InsertKeys`, `Registry.InsertLast` and `Registry.InsertOrder`) |
| `Registry.NewMapping` | olinguito/mapping.py:12-13 | the constructed table holds each name at most once |
| `Registry.Get` | olinguito/mapping.py:15-16 | lookup succeeds iff some stored wrapper has the name, and returns a stored wrapper with that name; otherwise KeyError |
| `Registry.FirstIndex` | olinguito/mapping.py:13 | the position of the first wrapper carrying a name: it carries it and no earlier one does |
| `Registry.LastIndex` | olinguito/mapping.py:13 | the position of the last wrapper carrying a name: it carries it and no later one does |
| `Registry.InsertKeys` | olinguito/mapping.py:13 | the table holds exactly the names the constructor arguments carry |
| `Registry.InsertLast` | olinguito/mapping.py:13 | every stored wrapper is the last argument carrying its name |
| `Registry.InsertOrder` | olinguito/mapping.py:13 | stored wrappers are ordered by the first occurrence of their names among the arguments |
| `Registry.LookupSpec` | olinguito/mapping.py:13-16 | looking up a name returns the last wrapper given under it; a name no argument carried raises KeyError |
| `Registry.Iterate` | olinguito/mapping.py:18-19 | iteration agrees with lookup: every yielded wrapper's name is found, every wrapper found is yielded, and with distinct names looking up a yielded name gives back that wrapper |
| `Registry.IterationSpec` | olinguito/mapping.py:12-19 | iteration yields one wrapper per distinct name, each the last given under that name, in first-occurrence order of the names |
| `Registry.DistinctRoundTrip` | olinguito/mapping.py:12-19 | with distinct names, iteration yields exactly the constructor arguments in order |
| `Registry.DistinctNamesAsStrings` | olinguito/mapping.py:13 | wrappers have distinct names exactly when their name sequence has no repeated string |
| `Registry.DistinctCard` | olinguito/mapping.py:13 | a wrapper sequence with distinct names has as many elements as names |
| `Registry.SizeSpec` | olinguito/mapping.py:13 | the table's size is the number of distinct names among the arguments; no arguments give an empty table |

## Left out

- Runtime reflection (`inspect.signature`, `get_origin`/`get_args`, the predicates of `olinguito/typeguards.py`): the constructors of `Desc` replace them, and a signature becomes a sequence of `Field(name, desc)`. Of `typing.get_type_hints`, the `Annotated` stripping is modelled (`Descriptors.StripAnnotations`); its resolution of forward references, its conversion of `None` to `types.NoneType` and its collection of `TypedDict` fields across base classes are abstracted: the field descriptors are given with those already applied, as one sequence.
- Python's own flattening and deduplication of nested `Union` and `Annotated`, of one-member unions and of repeated `Literal` values (`Literal[1, 1]` is `Literal[1]`): this happens before the translator runs. The model translates the descriptor it is given, keeps duplicate alternatives and repeated values, and rejects a nested union alternative.
- Schema.TranslateFields: a record's field types are stripped of `Annotated` (`Descriptors.StripFields`), but a union that the strip would make collapse (`Annotated[int, m] | int` becomes `int`) is not re-normalised, and `Required`/`NotRequired`, which `get_type_hints` also drops, have no descriptor; `SchemaFacts.RecordSpec` is stated for the stripped descriptors as given.
- Schema.Translate: its contract states the shape invariant; the tie of `items` to the array keyword and of `properties` to the object keyword is proved separately, by `SchemaFacts.KeysFollowType`.
- `olinguito/wrapping.py` (`wrap`, the missing-docstring `TypeError`, `functools.update_wrapper`, forwarding calls): it is reflection and call forwarding. `Wrapper` appears only as a record with `name`, `doc`, `parameters` and an opaque callable identity.
- `Mapping.__call__`: it invokes arbitrary user callables with arbitrary effects.
- Membership, length and truthiness of `Mapping`: `olinguito/mapping.py` does not define them. The table's size is still stated, by `Registry.SizeSpec`.
- The empty union: Python refuses `Union[()]` when it is built, so `WellFormed` requires at least one alternative.
- Duplicate field or parameter names: `TypedDict` fields and signature parameters come from Python dicts, so records require distinct names (`WellFormed`) and so does `Generating.GenerateJsonSchema`.
- JSON serialisation and dict key order: fragments are records compared field by field, as the source's tests compare dicts.
- Validating argument values against the schema: the code never does it.
- `olinguito/__init__.py`: it only re-exports names.

=== FILE: descriptors.dfy ===
/** Type descriptors: the tagged form of the Python type annotations the
    translator inspects (`int`, `Literal[...]`, `list[T]`, `A | B`, a
    `TypedDict` subclass, `Annotated[T, ...]`). Reflection is replaced by the
    constructors of `Desc`; Python's own flattening of nested unions and
    annotations, and its removal of repeated `Literal` values, have already
    happened, or not, in the value given. */
module Descriptors {

  /** A constant allowed inside `Literal[...]`. `LOther` stands for any value
      whose Python type is none of `int`, `str`, `bool` (`None`, bytes, an
      enum member, ...). `LBool` is kept apart from `LInt` because
      `type(True)` is `bool`, not `int`. */
  datatype LitVal = LInt(i: int) | LStr(s: string) | LBool(b: bool) | LOther

  /** Metadata attached by `Annotated`: a description mark built by
      `description(text)`, or any other object, which the translator ignores. */
  datatype Meta = Description(text: string) | OtherMeta

  /** One named member: a `TypedDict` field, or a function parameter. */
  datatype Field = Field(name: string, desc: Desc)

  /** `NoneType` is `types.NoneType`, which is what `None` becomes inside a
      union and in a type hint read by `get_type_hints`; the object `None`
      itself, as a bare parameter annotation or the element of a builtin
      `list[None]`, is no type the translator recognises and is given as
      `Unsupported`. `BareList` is `typing.List` without an argument: its
      origin is `list` but it has no element type. */
  datatype Desc =
    | Int
    | Float
    | Str
    | Bool
    | NoneType
    | Literal(values: seq<LitVal>)
    | List(elem: Desc)
    | BareList
    | Union(alts: seq<Desc>)
    | Record(fields: seq<Field>)
    | Annotated(base: Desc, metadata: seq<Meta>)
    | Unsupported

  /** The descriptor of the Python type of a literal value, as `type(v)`. */
  function TypeOf(v: LitVal): (d: Desc)
    ensures v.LOther? <==> d == Unsupported
    ensures v.LInt? <==> d == Int
    ensures v.LStr? <==> d == Str
    ensures v.LBool? <==> d == Bool
    ensures d in {Int, Str, Bool, Unsupported}
  {
    match v
    case LInt(_) => Int
    case LStr(_) => Str
    case LBool(_) => Bool
    case LOther => Unsupported
  }

  function FieldNames(fields: seq<Field>): (names: seq<string>)
    ensures |names| == |fields|
    ensures forall i :: 0 <= i < |fields| ==> names[i] == fields[i].name
  {
    seq(|fields|, i requires 0 <= i < |fields| => fields[i].name)
  }

  predicate DistinctStrings(s: seq<string>)
  {
    forall i, j :: 0 <= i < j < |s| ==> s[i] != s[j]
  }

  /** No two fields share a name: true of every `TypedDict` and every
      signature, whose members come from a Python dict. */
  predicate DistinctNames(fields: seq<Field>)
  {
    forall i, j :: 0 <= i < j < |fields| ==> fields[i].name != fields[j].name
  }
  /** Distinct field names are distinct strings in the name sequence. */
  lemma DistinctNamesAsStrings(fields: seq<Field>)
    ensures DistinctNames(fields) <==> DistinctStrings(FieldNames(fields))
  {
    var names := FieldNames(fields);
    if DistinctStrings(names) {
      forall i, j | 0 <= i < j < |fields|
        ensures fields[i].name != fields[j].name
      {
        assert names[i] != names[j];
      }
    }
  }


  /** The conditions Python's type constructors guarantee: a union has at
      least one alternative (`Union[()]` is refused) and a record's field
      names are distinct, at every depth. Inputs Python would have
      normalised first (nested or one-member unions, nested `Annotated`,
      repeated literal values) are admitted and translated as given, and so
      is the empty `Literal[()]`, which Python builds. */
  predicate WellFormed(d: Desc)
  {
    match d
    case List(elem) => WellFormed(elem)
    case Union(alts) =>
      && |alts| > 0
      && forall i :: 0 <= i < |alts| ==> WellFormed(alts[i])
    case Record(fields) =>
      && DistinctNames(fields)
      && forall i :: 0 <= i < |fields| ==> WellFormed(fields[i].desc)
    case Annotated(base, _) => WellFormed(base)
    case _ => true
  }

  /** The number of constructors in a descriptor; the translator's
      termination measure. */
  function Size(d: Desc): nat
  {
    match d
    case List(elem) => 1 + Size(elem)
    case Union(alts) => 1 + SizeAll(alts)
    case Record(fields) => 1 + FieldsSize(fields)
    case Annotated(base, _) => 1 + Size(base)
    case _ => 1
  }

  function SizeAll(alts: seq<Desc>): (n: nat)
    ensures |alts| > 0 ==> Size(alts[0]) < n && SizeAll(alts[1..]) < n
  {
    if |alts| == 0 then 0 else Size(alts[0]) + 1 + SizeAll(alts[1..])
  }

  function FieldsSize(fields: seq<Field>): (n: nat)
    ensures |fields| > 0 ==> Size(fields[0].desc) < n && FieldsSize(fields[1..]) < n
  {
    if |fields| == 0 then 0 else Size(fields[0].desc) + 1 + FieldsSize(fields[1..])
  }

  /** No `Annotated` left anywhere a type-hint strip reaches: inside lists
      and unions, but not inside a nested `TypedDict`, whose own hints are
      read separately. */
  predicate Unannotated(d: Desc)
  {
    match d
    case List(elem) => Unannotated(elem)
    case Union(alts) => forall i :: 0 <= i < |alts| ==> Unannotated(alts[i])
    case Annotated(_, _) => false
    case _ => true
  }

  /** What `typing.get_type_hints` without `include_extras` does to one hint:
      `Annotated[T, ...]` becomes `T`, inside lists and unions too; every
      other descriptor, a nested `TypedDict` included, is left as it is. */
  function StripAnnotations(d: Desc): (s: Desc)
    ensures Size(s) <= Size(d)
    decreases d
  {
    match d
    case List(elem) => List(StripAnnotations(elem))
    case Union(alts) =>
      var r := StripAll(alts);
      assert SizeAll(r) <= SizeAll(alts);
      Union(r)
    case Annotated(base, _) => StripAnnotations(base)
    case _ => d
  }

  function StripAll(alts: seq<Desc>): (r: seq<Desc>)
    ensures |r| == |alts|
    ensures forall i :: 0 <= i < |alts| ==> r[i] == StripAnnotations(alts[i])
    ensures SizeAll(r) <= SizeAll(alts)
    decreases alts
  {
    if |alts| == 0 then []
    else
      var rest := StripAll(alts[1..]);
      var r := [StripAnnotations(alts[0])] + rest;
      assert r[1..] == rest;
      r
  }

  /** The field types of a `TypedDict` as `get_type_hints` returns them: the
      same names in the same order, each type stripped of `Annotated`. */
  function StripFields(fields: seq<Field>): (r: seq<Field>)
    ensures |r| == |fields|
    ensures forall i :: 0 <= i < |fields| ==>
              r[i] == Field(fields[i].name, StripAnnotations(fields[i].desc))
    ensures FieldNames(r) == FieldNames(fields)
    ensures FieldsSize(r) <= FieldsSize(fields)
  {
    if |fields| == 0 then []
    else
      var rest := StripFields(fields[1..]);
      var r := [Field(fields[0].name, StripAnnotations(fields[0].desc))] + rest;
      assert r[1..] == rest;
      r
  }

  /** A well-formed hint stays well formed once stripped. */
  lemma {:induction false} StripWellFormed(d: Desc)
    ensures WellFormed(d) ==> WellFormed(StripAnnotations(d))
    decreases d
  {
    match d
    case List(elem) =>
      StripWellFormed(elem);
    case Union(alts) =>
      var r := StripAll(alts);
      forall i | 0 <= i < |r|
        ensures WellFormed(alts[i]) ==> WellFormed(r[i])
      {
        StripWellFormed(alts[i]);
      }
    case Annotated(base, _) =>
      StripWellFormed(base);
    case _ =>
  }

  /** The stripped field types of a well-formed record are well formed. */
  lemma StripFieldsWellFormed(fields: seq<Field>)
    requires forall i :: 0 <= i < |fields| ==> WellFormed(fields[i].desc)
    ensures forall i :: 0 <= i < |fields| ==> WellFormed(StripFields(fields)[i].desc)
  {
    var r := StripFields(fields);
    forall i | 0 <= i < |fields|
      ensures WellFormed(r[i].desc)
    {
      StripWellFormed(fields[i].desc);
    }
  }

  /** Stripping leaves no `Annotated` within reach. */
  lemma {:induction false} StripLeavesNone(d: Desc)
    ensures Unannotated(StripAnnotations(d))
    decreases d
  {
    match d
    case List(elem) =>
      StripLeavesNone(elem);
    case Union(alts) =>
      var r := StripAll(alts);
      forall i | 0 <= i < |r|
        ensures Unannotated(r[i])
      {
        StripLeavesNone(alts[i]);
      }
    case Annotated(base, _) =>
      StripLeavesNone(base);
    case _ =>
  }

  /** Stripping changes nothing that has no `Annotated` within reach. */
  lemma {:induction false} StripKeepsUnannotated(d: Desc)
    requires Unannotated(d)
    ensures StripAnnotations(d) == d
    decreases d
  {
    match d
    case List(elem) =>
      StripKeepsUnannotated(elem);
    case Union(alts) =>
      var r := StripAll(alts);
      forall i | 0 <= i < |alts|
        ensures r[i] == alts[i]
      {
        StripKeepsUnannotated(alts[i]);
      }
      assert r == alts;
    case _ =>
  }

  /** Stripping twice is stripping once. */
  lemma StripIdempotent(d: Desc)
    ensures StripAnnotations(StripAnnotations(d)) == StripAnnotations(d)
  {
    StripLeavesNone(d);
    StripKeepsUnannotated(StripAnnotations(d));
  }

  /** Wrapping one field's type in `Annotated` keeps the record well formed. */
  lemma MarkedFieldWellFormed(fields: seq<Field>, k: nat, metadata: seq<Meta>)
    requires WellFormed(Record(fields)) && k < |fields|
    ensures WellFormed(Record(fields[k := Field(fields[k].name, Annotated(fields[k].desc, metadata))]))
  {
    var marked := fields[k := Field(fields[k].name, Annotated(fields[k].desc, metadata))];
    forall i, j | 0 <= i < j < |marked|
      ensures marked[i].name != marked[j].name
    {
      assert marked[i].name == fields[i].name && marked[j].name == fields[j].name;
    }
    forall i | 0 <= i < |marked|
      ensures WellFormed(marked[i].desc)
    {
      if i != k {
        assert marked[i] == fields[i];
      }
    }
  }

  /** Wrapping one field's type in `Annotated` does not change the type
      hints of the record. */
  lemma MarkedFieldStrips(fields: seq<Field>, k: nat, metadata: seq<Meta>)
    requires k < |fields|
    ensures StripFields(fields[k := Field(fields[k].name, Annotated(fields[k].desc, metadata))])
              == StripFields(fields)
  {
    var marked := fields[k := Field(fields[k].name, Annotated(fields[k].desc, metadata))];
    var a, b := StripFields(marked), StripFields(fields);
    forall i | 0 <= i < |fields|
      ensures a[i] == b[i]
    {
      if i == k {
        assert StripAnnotations(marked[k].desc) == StripAnnotations(fields[k].desc);
      } else {
        assert marked[i] == fields[i];
      }
    }
    assert a == b;
  }
}

=== FILE: generating.dfy ===
/** `generate_json_schema` of `olinguito/generating.py`: the object schema of
    a whole parameter list. Signature introspection is replaced by its result,
    the ordered list of (parameter name, annotation descriptor) pairs; a
    parameter without an annotation is given as `Unsupported`, since the
    translator rejects `inspect.Parameter.empty` like any unknown object, and
    so is a parameter annotated with the object `None`, which the signature
    leaves as it is and no branch of the translator recognises. */
module Generating {
  import opened Results
  import opened Descriptors
  import opened Schema
  import opened SchemaFacts

  /** The `JsonSchema` dict. Its `type` and `additionalProperties` are
      constants in the source's typing; they are fields here so that the
      constants are stated rather than assumed. */
  datatype JsonSchema = JsonSchema(
    typ: Tag,
    properties: PropertyMap,
    required: seq<string>,
    additionalProperties: bool)

  /** One `properties` entry and one `required` name per parameter, in
      declaration order; any parameter whose descriptor fails makes the whole
      generation fail. The names are distinct because a Python signature's
      parameters form a dict. */
  function GenerateJsonSchema(params: seq<Field>): (r: Result<JsonSchema>)
    requires DistinctNames(params)
    requires forall k :: 0 <= k < |params| ==> WellFormed(params[k].desc)
    ensures r.Ok? ==> r.value.typ == Object && !r.value.additionalProperties
    ensures r.Ok? ==> |r.value.required| == |params|
    ensures r.Ok? ==> r.value.required == Names(r.value.properties.entries)
    ensures r.Ok? ==> DistinctStrings(r.value.required)
    ensures r.Ok? ==> forall k :: 0 <= k < |params| ==> r.value.required[k] == params[k].name
  {
    var properties :- TranslateFields(params);
    Ok(JsonSchema(Object, PropertyMap(properties), FieldNames(params), false))
  }

  /** Generation succeeds exactly when every parameter's descriptor
      translates; each property then holds the translator's fragment for its
      parameter, and otherwise the error is the first failing parameter's. */
  lemma GenerateSpec(params: seq<Field>)
    requires DistinctNames(params)
    requires forall k :: 0 <= k < |params| ==> WellFormed(params[k].desc)
    ensures GenerateJsonSchema(params).Ok? <==>
              forall k :: 0 <= k < |params| ==> Translate(params[k].desc).Ok?
    ensures GenerateJsonSchema(params).Ok? ==>
              var props := GenerateJsonSchema(params).value.properties.entries;
              && |props| == |params|
              && forall k :: 0 <= k < |params| ==>
                   props[k] == Property(params[k].name, Translate(params[k].desc).value)
    ensures GenerateJsonSchema(params).Err? ==>
              exists i :: FirstFieldError(params, i, GenerateJsonSchema(params).error)
  {
    FieldsSpec(params);
  }

  /** No parameters: empty `properties`, empty `required`. */
  lemma NoParameters()
    ensures GenerateJsonSchema([]) == Ok(JsonSchema(Object, PropertyMap([]), [], false))
  {
  }

  /** A parameter whose value type allows null (`t | None` for a primitive
      `t`) is still required: generation does not fail on it, and its name is
      in `required` at its own position. */
  lemma OptionalValueIsRequired(params: seq<Field>, k: nat, t: Desc)
    requires DistinctNames(params)
    requires forall j :: 0 <= j < |params| ==> WellFormed(params[j].desc)
    requires k < |params| && IsPrimitive(t) && params[k].desc == Union([t, NoneType])
    requires forall j :: 0 <= j < |params| && j != k ==> Translate(params[j].desc).Ok?
    ensures GenerateJsonSchema(params).Ok?
    ensures GenerateJsonSchema(params).value.required[k] == params[k].name
    ensures params[k].name in GenerateJsonSchema(params).value.required
  {
    TwoAlternatives(t, NoneType);
    assert Translate(params[k].desc).Ok?;
    GenerateSpec(params);
  }

  /** An unannotated parameter (such as `self` of an unbound method) makes
      generation fail with `TypeError`; no partial schema is returned. */
  lemma UnannotatedParameterFails()
    ensures GenerateJsonSchema([Field("self", Unsupported), Field("text", Str)]) == Err(TypeError)
  {
    var params := [Field("self", Unsupported), Field("text", Str)];
    GenerateSpec(params);
    var i :| FirstFieldError(params, i, GenerateJsonSchema(params).error);
    assert i == 0;
  }
}

=== FILE: registry.dfy ===
/** The name table of `olinguito/mapping.py`.

    `Mapping(*wrappers)` stores a dict from each wrapper's name to the wrapper
    (olinguito/mapping.py:13). A Python dict keeps each key at the position
    of its first insertion while a later assignment to the same key replaces
    the value, so the table is modelled as the sequence of its values in
    key-insertion order, each value's key being its own name. */
module Registry {
  import opened Results
  import Descriptors
  import Generating

  /** Identity of the wrapped Python callable; calls are not modelled. */
  type FuncRef = nat

  /** A `Wrapper`: the callable, its parameter schema, its docstring and its
      name (the callable's `__name__`). */
  datatype Wrapper = Wrapper(
    func: FuncRef,
    parameters: Generating.JsonSchema,
    doc: string,
    name: string)

  /** The table's values in insertion order of their names. */
  datatype Mapping = Mapping(data: seq<Wrapper>)

  predicate DistinctNames(ws: seq<Wrapper>)
  {
    forall i, j :: 0 <= i < j < |ws| ==> ws[i].name != ws[j].name
  }
  /** Distinct wrapper names are distinct strings in the name sequence. */
  lemma DistinctNamesAsStrings(ws: seq<Wrapper>)
    ensures DistinctNames(ws) <==>
              Descriptors.DistinctStrings(seq(|ws|, i requires 0 <= i < |ws| => ws[i].name))
  {
    var names := seq(|ws|, i requires 0 <= i < |ws| => ws[i].name);
    if Descriptors.DistinctStrings(names) {
      forall i, j | 0 <= i < j < |ws|
        ensures ws[i].name != ws[j].name
      {
        assert names[i] != names[j];
      }
    }
  }


  predicate HasName(ws: seq<Wrapper>, key: string)
  {
    exists i :: 0 <= i < |ws| && ws[i].name == key
  }

  /** `data[w.name] = w` on a dict whose keys are its values' names: an
      existing key keeps its place and takes the new value, a new key goes
      last. */
  function Put(data: seq<Wrapper>, w: Wrapper): (r: seq<Wrapper>)
    requires DistinctNames(data)
    ensures DistinctNames(r)
    ensures forall i :: 0 <= i < |data| && data[i].name == w.name ==> r == data[i := w]
    ensures !HasName(data, w.name) ==> r == data + [w]
  {
    if |data| == 0 then [w]
    else if data[0].name == w.name then [w] + data[1..]
    else
      var rest := Put(data[1..], w);
      assert forall i :: 1 <= i < |data| ==> data[i] == data[1..][i - 1];
      [data[0]] + rest
  }

  /** The dict comprehension, one assignment per wrapper in argument order. */
  function Insert(ws: seq<Wrapper>): (data: seq<Wrapper>)
    ensures DistinctNames(data)
  {
    if |ws| == 0 then []
    else Put(Insert(ws[..|ws| - 1]), ws[|ws| - 1])
  }

  /** `Mapping(*wrappers)`. */
  function NewMapping(wrappers: seq<Wrapper>): (m: Mapping)
    ensures DistinctNames(m.data)
  {
    Mapping(Insert(wrappers))
  }

  /** `mapping[key]`: the wrapper stored under `key`, or `KeyError`. */
  function Get(m: Mapping, key: string): (r: Result<Wrapper>)
    ensures r.Ok? <==> HasName(m.data, key)
    ensures r.Ok? ==> r.value in m.data && r.value.name == key
    ensures r.Err? ==> r.error == KeyError
    decreases |m.data|
  {
    if |m.data| == 0 then Err(KeyError)
    else if m.data[0].name == key then Ok(m.data[0])
    else
      var r := Get(Mapping(m.data[1..]), key);
      assert HasName(m.data[1..], key) ==> HasName(m.data, key);
      assert HasName(m.data, key) ==> HasName(m.data[1..], key) by {
        if HasName(m.data, key) {
          var i :| 0 <= i < |m.data| && m.data[i].name == key;
          assert m.data[1..][i - 1] == m.data[i];
        }
      }
      r
  }

  /** `iter(mapping)`: the stored wrappers in key-insertion order. What it
      yields agrees with lookup: every yielded wrapper's name is found, every
      wrapper found is yielded, and with distinct names (as every constructed
      table has) looking up a yielded name gives back that very wrapper. */
  function Iterate(m: Mapping): (r: seq<Wrapper>)
    ensures forall i :: 0 <= i < |r| ==> Get(m, r[i].name).Ok?
    ensures forall key :: Get(m, key).Ok? ==> Get(m, key).value in r
    ensures DistinctNames(m.data) ==>
              forall i :: 0 <= i < |r| ==> Get(m, r[i].name) == Ok(r[i])
  {
    m.data
  }

  // ---------------------------------------------------------------------
  // Properties of the constructed table
  // ---------------------------------------------------------------------

  /** Position of the first wrapper carrying `key`. */
  function FirstIndex(ws: seq<Wrapper>, key: string): (p: nat)
    requires HasName(ws, key)
    ensures p < |ws| && ws[p].name == key
    ensures forall q :: 0 <= q < p ==> ws[q].name != key
  {
    if ws[0].name == key then 0
    else
      assert HasName(ws[1..], key) by {
        var i :| 0 <= i < |ws| && ws[i].name == key;
        assert ws[1..][i - 1] == ws[i];
      }
      1 + FirstIndex(ws[1..], key)
  }

  /** Position of the last wrapper carrying `key`. */
  function LastIndex(ws: seq<Wrapper>, key: string): (p: nat)
    requires HasName(ws, key)
    ensures p < |ws| && ws[p].name == key
    ensures forall q :: p < q < |ws| ==> ws[q].name != key
  {
    if ws[|ws| - 1].name == key then |ws| - 1
    else
      assert HasName(ws[..|ws| - 1], key) by {
        var i :| 0 <= i < |ws| && ws[i].name == key;
        assert ws[..|ws| - 1][i] == ws[i];
      }
      LastIndex(ws[..|ws| - 1], key)
  }

  /** The names carried after appending one wrapper. */
  lemma HasNameAppend(init: seq<Wrapper>, w: Wrapper, key: string)
    ensures HasName(init + [w], key) <==> HasName(init, key) || key == w.name
  {
    var ws := init + [w];
    if HasName(init, key) {
      var i :| 0 <= i < |init| && init[i].name == key;
      assert ws[i] == init[i];
    }
    if key == w.name {
      assert ws[|init|] == w;
    }
    if HasName(ws, key) && key != w.name {
      var i :| 0 <= i < |ws| && ws[i].name == key;
      assert init[i] == ws[i];
    }
  }

  /** Storing `w` adds its name to the table's names and nothing else. */
  lemma PutKeys(data: seq<Wrapper>, w: Wrapper, key: string)
    requires DistinctNames(data)
    ensures HasName(Put(data, w), key) <==> HasName(data, key) || key == w.name
  {
    var r := Put(data, w);
    if HasName(data, w.name) {
      var i :| 0 <= i < |data| && data[i].name == w.name;
      assert r == data[i := w];
      assert r[i] == w;
      if HasName(data, key) {
        var j :| 0 <= j < |data| && data[j].name == key;
        assert r[j].name == key;
      }
      if HasName(r, key) {
        var j :| 0 <= j < |r| && r[j].name == key;
        assert data[j].name == key || j == i;
      }
    } else {
      assert r == data + [w];
      HasNameAppend(data, w, key);
    }
  }
  /** `Put` position by position: a stored wrapper with the new wrapper's
      name is replaced, every other one stays, and a new name goes last. */
  lemma PutIndex(data: seq<Wrapper>, w: Wrapper)
    requires DistinctNames(data)
    ensures |Put(data, w)| == if HasName(data, w.name) then |data| else |data| + 1
    ensures forall t :: 0 <= t < |data| ==>
              Put(data, w)[t] == if data[t].name == w.name then w else data[t]
    ensures !HasName(data, w.name) ==> Put(data, w)[|data|] == w
  {
    var r := Put(data, w);
    if HasName(data, w.name) {
      var i :| 0 <= i < |data| && data[i].name == w.name;
      assert r == data[i := w];
    } else {
      assert r == data + [w];
    }
  }


  /** The table holds exactly the names the arguments carry. */
  lemma {:induction false} InsertKeys(ws: seq<Wrapper>, key: string)
    ensures HasName(Insert(ws), key) <==> HasName(ws, key)
    decreases |ws|
  {
    if |ws| > 0 {
      var init := ws[..|ws| - 1];
      var w := ws[|ws| - 1];
      assert ws == init + [w];
      InsertKeys(init, key);
      PutKeys(Insert(init), w, key);
      HasNameAppend(init, w, key);
    }
  }

  /** Appending a wrapper leaves the first occurrence of a name already
      present where it was, and puts a new name's first occurrence last. */
  lemma FirstIndexAppend(init: seq<Wrapper>, w: Wrapper, key: string)
    requires HasName(init + [w], key)
    ensures HasName(init, key) ==> FirstIndex(init + [w], key) == FirstIndex(init, key)
    ensures !HasName(init, key) ==> FirstIndex(init + [w], key) == |init|
  {
    var ws := init + [w];
    var p' := FirstIndex(ws, key);
    if HasName(init, key) {
      var p := FirstIndex(init, key);
      assert ws[p] == init[p];
      assert init[p'] == ws[p'];
    } else {
      assert forall q :: 0 <= q < |init| ==> ws[q] == init[q];
    }
  }

  /** Appending a wrapper makes it the last of its name and leaves the last
      occurrence of every other name where it was. */
  lemma LastIndexAppend(init: seq<Wrapper>, w: Wrapper, key: string)
    requires HasName(init + [w], key)
    ensures key == w.name ==> LastIndex(init + [w], key) == |init|
    ensures key != w.name ==> HasName(init, key) && LastIndex(init + [w], key) == LastIndex(init, key)
  {
    var ws := init + [w];
    assert ws[..|ws| - 1] == init;
    HasNameAppend(init, w, key);
  }

  /** Every stored wrapper is the last one the arguments carry under its
      name. */
  lemma {:induction false} InsertLast(ws: seq<Wrapper>, t: int)
    requires 0 <= t < |Insert(ws)|
    ensures HasName(ws, Insert(ws)[t].name)
    ensures Insert(ws)[t] == ws[LastIndex(ws, Insert(ws)[t].name)]
    decreases |ws|
  {
    var init := ws[..|ws| - 1];
    var w := ws[|ws| - 1];
    assert ws == init + [w];
    var m0 := Insert(init);
    var m := Insert(ws);
    assert m == Put(m0, w);
    PutIndex(m0, w);
    var key := m[t].name;
    assert HasName(m, key);
    InsertKeys(ws, key);
    LastIndexAppend(init, w, key);
    if key == w.name {
      if t < |m0| {
        assert m0[t].name == w.name;
      } else {
        assert !HasName(m0, w.name) && t == |m0|;
      }
      assert ws[|init|] == w;
    } else {
      assert t < |m0| && m[t] == m0[t];
      InsertLast(init, t);
      assert ws[LastIndex(init, key)] == init[LastIndex(init, key)];
    }
  }


  /** Stored wrappers appear in first-occurrence order of their names. */
  lemma {:induction false} InsertOrder(ws: seq<Wrapper>, a: int, b: int)
    requires 0 <= a < b < |Insert(ws)|
    ensures HasName(ws, Insert(ws)[a].name) && HasName(ws, Insert(ws)[b].name)
    ensures FirstIndex(ws, Insert(ws)[a].name) < FirstIndex(ws, Insert(ws)[b].name)
    decreases |ws|
  {
    var init := ws[..|ws| - 1];
    var w := ws[|ws| - 1];
    assert ws == init + [w];
    var m0 := Insert(init);
    var m := Insert(ws);
    assert m == Put(m0, w);
    PutIndex(m0, w);
    var ka, kb := m[a].name, m[b].name;
    assert HasName(m, ka) && HasName(m, kb);
    InsertKeys(ws, ka);
    InsertKeys(ws, kb);
    assert m0[a].name == ka;
    FirstIndexAppend(init, w, ka);
    FirstIndexAppend(init, w, kb);
    if b < |m0| {
      assert m0[b].name == kb;
      InsertOrder(init, a, b);
    } else {
      assert m[b] == w;
      assert HasName(m0, ka);
      InsertKeys(init, ka);
      InsertKeys(init, kb);
    }
  }


  /** Looking up a name returns the last wrapper the constructor received
      under that name, and a name no argument carried raises `KeyError`. */
  lemma LookupSpec(wrappers: seq<Wrapper>, key: string)
    ensures Get(NewMapping(wrappers), key).Ok? <==> HasName(wrappers, key)
    ensures !HasName(wrappers, key) ==> Get(NewMapping(wrappers), key) == Err(KeyError)
    ensures HasName(wrappers, key) ==>
              Get(NewMapping(wrappers), key) == Ok(wrappers[LastIndex(wrappers, key)])
  {
    InsertKeys(wrappers, key);
    var data := Insert(wrappers);
    assert NewMapping(wrappers) == Mapping(data);
    var r := Get(Mapping(data), key);
    assert r.Ok? <==> HasName(wrappers, key);
    if r.Ok? {
      var t :| 0 <= t < |data| && data[t] == r.value;
      InsertLast(wrappers, t);
      assert data[t].name == key;
    }
  }

  /** Iteration yields one wrapper per distinct name, each the last one given
      under its name, in first-occurrence order of the names. */
  lemma IterationSpec(wrappers: seq<Wrapper>)
    ensures DistinctNames(Iterate(NewMapping(wrappers)))
    ensures forall key :: HasName(Iterate(NewMapping(wrappers)), key) <==> HasName(wrappers, key)
    ensures forall t :: 0 <= t < |Iterate(NewMapping(wrappers))| ==>
              var w := Iterate(NewMapping(wrappers))[t];
              HasName(wrappers, w.name) && w == wrappers[LastIndex(wrappers, w.name)]
    ensures forall a, b :: 0 <= a < b < |Iterate(NewMapping(wrappers))| ==>
              var wa := Iterate(NewMapping(wrappers))[a];
              var wb := Iterate(NewMapping(wrappers))[b];
              && HasName(wrappers, wa.name) && HasName(wrappers, wb.name)
              && FirstIndex(wrappers, wa.name) < FirstIndex(wrappers, wb.name)
  {
    forall key
      ensures HasName(Insert(wrappers), key) <==> HasName(wrappers, key)
    {
      InsertKeys(wrappers, key);
    }
    forall t | 0 <= t < |Insert(wrappers)|
      ensures HasName(wrappers, Insert(wrappers)[t].name)
      ensures Insert(wrappers)[t] == wrappers[LastIndex(wrappers, Insert(wrappers)[t].name)]
    {
      InsertLast(wrappers, t);
    }
    forall a, b | 0 <= a < b < |Insert(wrappers)|
      ensures HasName(wrappers, Insert(wrappers)[a].name)
      ensures HasName(wrappers, Insert(wrappers)[b].name)
      ensures FirstIndex(wrappers, Insert(wrappers)[a].name)
                < FirstIndex(wrappers, Insert(wrappers)[b].name)
    {
      InsertOrder(wrappers, a, b);
    }
  }

  /** With distinct names, iteration gives back the constructor arguments in
      order. */
  lemma {:induction false} DistinctRoundTrip(wrappers: seq<Wrapper>)
    requires DistinctNames(wrappers)
    ensures Iterate(NewMapping(wrappers)) == wrappers
    decreases |wrappers|
  {
    if |wrappers| > 0 {
      var init := wrappers[..|wrappers| - 1];
      var w := wrappers[|wrappers| - 1];
      assert wrappers == init + [w];
      DistinctRoundTrip(init);
      assert Insert(init) == init;
      assert !HasName(init, w.name);
    }
  }

  function NameSet(ws: seq<Wrapper>): set<string>
  {
    set w | w in ws :: w.name
  }

  /** A sequence of distinct names has as many elements as its name set. */
  lemma {:induction false} DistinctCard(ws: seq<Wrapper>)
    requires DistinctNames(ws)
    ensures |NameSet(ws)| == |ws|
    decreases |ws|
  {
    if |ws| > 0 {
      var init := ws[..|ws| - 1];
      var w := ws[|ws| - 1];
      assert ws == init + [w];
      DistinctCard(init);
      assert NameSet(ws) == NameSet(init) + {w.name};
      assert w.name !in NameSet(init);
    }
  }

  /** The table's size is the number of distinct names among the arguments;
      in particular no arguments give an empty table. */
  lemma SizeSpec(wrappers: seq<Wrapper>)
    ensures |Iterate(NewMapping(wrappers))| == |NameSet(wrappers)|
    ensures wrappers == [] ==> Iterate(NewMapping(wrappers)) == []
  {
    var data := NewMapping(wrappers).data;
    DistinctCard(data);
    assert NameSet(data) == NameSet(wrappers) by {
      forall key
        ensures key in NameSet(data) <==> key in NameSet(wrappers)
      {
        if key in NameSet(data) {
          var w :| w in data && w.name == key;
          var i :| 0 <= i < |data| && data[i] == w;
          assert HasName(data, key);
          InsertKeys(wrappers, key);
        }
        if key in NameSet(wrappers) {
          var w :| w in wrappers && w.name == key;
          var i :| 0 <= i < |wrappers| && wrappers[i] == w;
          assert HasName(wrappers, key);
          InsertKeys(wrappers, key);
          var j :| 0 <= j < |data| && data[j].name == key;
          assert data[j] in data;
        }
      }
    }
  }
}

=== FILE: results.dfy ===
/** Failure-compatible wrappers shared by every part of the model.

    `Error` names the Python exception kinds the modelled code raises: the
    translator raises `TypeError` for an unsupported descriptor, `ValueError`
    for a doubly described one and `IndexError` for a `typing.List` without
    an element type or an empty `Literal[()]`, and the name table raises
    `KeyError` for an absent name. */
module Results {

  datatype Error = TypeError | ValueError | IndexError | KeyError

  datatype Option<+T> = None | Some(value: T)

  /** The outcome of an operation that may raise: a value or the kind of the
      exception raised. Usable with `:-`. */
  datatype Result<+T> = Ok(value: T) | Err(error: Error) {

    predicate IsFailure() {
      Err?
    }

    function PropagateFailure<U>(): Result<U>
      requires Err?
    {
      Err(error)
    }

    function Extract(): T
      requires Ok?
    {
      value
    }
  }
}

=== FILE: schema.dfy ===
/** The JSON-Schema fragment translator of `olinguito/schema.py`.

    `Translate` is `to_schema_type`: a structurally recursive function from a
    descriptor to a `Fragment` (the `_SchemaType` dict), or the kind of the
    exception it raises. Its helpers follow the Python helpers one to one:
    `TranslateLiteral` is `_to_enum_schema_type`, `TranslateAlternatives`
    with `MergeUnion` is `_to_union_schema_type`, `TranslateFields` is the
    loop of `_to_typeddict_schema_type`, and the `Annotated` arm with
    `Describe` is `_to_annotated_schema_type`. */
module Schema {
  import opened Results
  import opened Descriptors

  /** The JSON type keywords a fragment may carry (`TypeKeyword`). */
  datatype Tag = String | Integer | Number | Object | Array | Boolean | Null

  /** The value of the `type` key: one keyword, or a list of them (unions). */
  datatype TypeField = Single(tag: Tag) | Multi(tags: seq<Tag>)

  /** One entry of `properties`. */
  datatype Property = Property(name: string, schema: Fragment)

  /** The `properties` dict, its entries in insertion order. */
  datatype PropertyMap = PropertyMap(entries: seq<Property>)

  /** A `_SchemaType` dict. Every key but `type` is optional; a present
      `additionalProperties` is always `false` in the source's typing, which
      `Shaped` states. */
  datatype Fragment = Fragment(
    typ: TypeField,
    items: Option<Fragment>,
    description: Option<string>,
    properties: Option<PropertyMap>,
    required: Option<seq<string>>,
    additionalProperties: Option<bool>,
    enum: Option<seq<LitVal>>)

  /** `{"type": t}` with no other key. */
  function Leaf(t: Tag): Fragment
  {
    Fragment(Single(t), None, None, None, None, None, None)
  }

  predicate IsPrimitive(d: Desc)
  {
    d.Int? || d.Float? || d.Str? || d.Bool? || d.NoneType?
  }

  /** The keyword of a primitive Python type: one keyword per type, never
      `object` or `array`. */
  function PrimitiveTag(d: Desc): (t: Tag)
    requires IsPrimitive(d)
    ensures t != Object && t != Array
    ensures (t == Integer <==> d == Int) && (t == Number <==> d == Float)
    ensures (t == String <==> d == Str) && (t == Boolean <==> d == Bool)
    ensures t == Null <==> d == NoneType
  {
    match d
    case Int => Integer
    case Float => Number
    case Str => String
    case Bool => Boolean
    case NoneType => Null
  }

  /** The keyword of a literal value's Python type, if it has one the
      translator accepts inside `Literal`. */
  function LitTag(v: LitVal): Option<Tag>
  {
    if v.LOther? then None else Some(PrimitiveTag(TypeOf(v)))
  }

  function Names(props: seq<Property>): (names: seq<string>)
    ensures |names| == |props|
    ensures forall i :: 0 <= i < |props| ==> names[i] == props[i].name
  {
    seq(|props|, i requires 0 <= i < |props| => props[i].name)
  }

  /** An `enum` accompanies exactly one of the keywords integer, string or
      boolean, is non-empty, and every member has that keyword's type. */
  predicate EnumMatchesType(f: Fragment)
    requires f.enum.Some?
  {
    && f.typ.Single?
    && f.typ.tag in {Integer, String, Boolean}
    && |f.enum.value| > 0
    && forall i :: 0 <= i < |f.enum.value| ==> LitTag(f.enum.value[i]) == Some(f.typ.tag)
  }

  /** The shape invariant of every fragment the translator returns, at every
      depth: `properties` and `required` are both present or both absent;
      `required` lists the property names in order, without repetition;
      `additionalProperties` is present, and `false`, exactly alongside
      `properties`; an `enum` matches the single type keyword. */
  predicate Shaped(f: Fragment)
  {
    && (f.properties.Some? <==> f.required.Some?)
    && (f.properties.Some? <==> f.additionalProperties == Some(false))
    && (f.properties.None? ==> f.additionalProperties.None?)
    && (f.properties.Some? ==>
          && f.required.value == Names(f.properties.value.entries)
          && DistinctStrings(f.required.value)
          && forall i :: 0 <= i < |f.properties.value.entries| ==>
               Shaped(f.properties.value.entries[i].schema))
    && (f.items.Some? ==> Shaped(f.items.value))
    && (f.enum.Some? ==> EnumMatchesType(f))
  }

  /** `to_schema_type`: the fragment for descriptor `d`, or the exception. */
  function Translate(d: Desc): (r: Result<Fragment>)
    requires WellFormed(d)
    ensures r.Ok? ==> Shaped(r.value)
    decreases Size(d), 1
  {
    match d
    case Int | Float | Str | Bool | NoneType => Ok(Leaf(PrimitiveTag(d)))
    case Literal(values) => TranslateLiteral(values)
    case List(elem) =>
      var items :- Translate(elem);
      Ok(Leaf(Array).(items := Some(items)))
    case BareList => Err(IndexError)
    case Union(alts) =>
      var schemas :- TranslateAlternatives(alts);
      Ok(MergeUnion(schemas))
    case Record(fields) =>
      assert DistinctNames(fields);
      StripFieldsWellFormed(fields);
      var properties :- TranslateFields(StripFields(fields));
      assert Names(properties) == FieldNames(fields);
      Ok(ObjectFragment(properties))
    case Annotated(base, metadata) =>
      var marks := Marks(metadata);
      if |marks| > 1 then Err(ValueError)
      else if |marks| == 1 then
        var schema :- Translate(base);
        Ok(Describe(schema, marks[0]))
      else Translate(base)
    case Unsupported => Err(TypeError)
  }

  /** The fragment of a `TypedDict`: `object` with the given properties, all
      of their names required, and no additional properties. */
  function ObjectFragment(properties: seq<Property>): (f: Fragment)
    requires DistinctStrings(Names(properties))
    requires forall i :: 0 <= i < |properties| ==> Shaped(properties[i].schema)
    ensures Shaped(f)
  {
    Leaf(Object).(properties := Some(PropertyMap(properties)),
                  required := Some(Names(properties)),
                  additionalProperties := Some(false))
  }

  /** `_to_enum_schema_type`: the set of the values' Python types must lie
      within {int, str, bool} and have at most one member; the fragment is
      the first value's type's fragment plus `enum` = the values in
      declaration order. With no values both checks pass and reading the
      first value raises `IndexError`. */
  function TranslateLiteral(values: seq<LitVal>): (r: Result<Fragment>)
    ensures r.Ok? ==> Shaped(r.value)
  {
    var vtypes := set v | v in values :: TypeOf(v);
    if !(vtypes <= {Int, Str, Bool}) then Err(TypeError)
    else if |vtypes| > 1 then Err(TypeError)
    else if |values| == 0 then Err(IndexError)
    else
      assert TypeOf(values[0]) in vtypes;
      assert forall i :: 0 <= i < |values| ==> TypeOf(values[i]) in vtypes;
      SingletonSet(vtypes, TypeOf(values[0]));
      Ok(Leaf(PrimitiveTag(TypeOf(values[0]))).(enum := Some(values)))
  }

  /** A set with at most one element holds nothing but its known member. */
  lemma SingletonSet<T>(s: set<T>, x: T)
    requires x in s && |s| <= 1
    ensures s == {x}
  {
    if y :| y in s && y != x {
      assert {x, y} <= s;
      assert |{x, y}| == 2;
      SubsetCard({x, y}, s);
    }
  }

  lemma SubsetCard<T>(a: set<T>, b: set<T>)
    requires a <= b
    ensures |a| <= |b|
  {
    assert b == a + (b - a);
  }

  /** The loop of `_to_union_schema_type` over the alternatives: each is
      translated in order; the first that raises, or whose `type` is itself a
      list (`TypeError`), ends the loop. */
  function TranslateAlternatives(alts: seq<Desc>): (r: Result<seq<Fragment>>)
    requires forall i :: 0 <= i < |alts| ==> WellFormed(alts[i])
    ensures r.Ok? ==> |r.value| == |alts|
    ensures r.Ok? ==> forall i :: 0 <= i < |r.value| ==> r.value[i].typ.Single? && Shaped(r.value[i])
    decreases SizeAll(alts), 0
  {
    if |alts| == 0 then Ok([])
    else
      var schema :- Translate(alts[0]);
      if schema.typ.Multi? then Err(TypeError)
      else
        var rest :- TranslateAlternatives(alts[1..]);
        Ok([schema] + rest)
  }

  /** The loop of `_to_typeddict_schema_type` (and of `generate_json_schema`):
      each field is translated in declaration order into one property; the
      first error ends the loop. */
  function TranslateFields(fields: seq<Field>): (r: Result<seq<Property>>)
    requires forall i :: 0 <= i < |fields| ==> WellFormed(fields[i].desc)
    ensures r.Ok? ==> Names(r.value) == FieldNames(fields)
    ensures r.Ok? ==> forall i :: 0 <= i < |r.value| ==> Shaped(r.value[i].schema)
    decreases FieldsSize(fields), 0
  {
    if |fields| == 0 then Ok([])
    else
      var schema :- Translate(fields[0].desc);
      var rest :- TranslateFields(fields[1..]);
      Ok([Property(fields[0].name, schema)] + rest)
  }

  /** The type keywords of the alternatives, in alternative order. */
  function Tags(schemas: seq<Fragment>): (tags: seq<Tag>)
    requires forall i :: 0 <= i < |schemas| ==> schemas[i].typ.Single?
    ensures |tags| == |schemas|
    ensures forall i :: 0 <= i < |schemas| ==> tags[i] == schemas[i].typ.tag
  {
    seq(|schemas|, i requires 0 <= i < |schemas| => schemas[i].typ.tag)
  }

  /** An alternative that came from a record or a list. */
  predicate IsStructured(f: Fragment)
  {
    f.properties.Some? || f.items.Some?
  }

  /** The structured alternatives, in order (the `schemas` list): it keeps
      every structured alternative, drops every other, and never grows. */
  function Structured(schemas: seq<Fragment>): (r: seq<Fragment>)
    ensures |r| <= |schemas|
    ensures forall i :: 0 <= i < |r| ==> r[i] in schemas && IsStructured(r[i])
    ensures forall i :: 0 <= i < |schemas| && IsStructured(schemas[i]) ==> schemas[i] in r
  {
    if |schemas| == 0 then []
    else
      var last := schemas[|schemas| - 1];
      Structured(schemas[..|schemas| - 1]) + (if IsStructured(last) then [last] else [])
  }

  /** A key copied from `source` when present there, else kept. */
  function Override<T>(kept: Option<T>, source: Option<T>): Option<T>
  {
    if source.Some? then source else kept
  }

  /** One pass of the copy loop of `_to_union_schema_type`. */
  function Absorb(acc: Fragment, s: Fragment): (r: Fragment)
    requires Shaped(acc) && Shaped(s)
    ensures Shaped(r)
  {
    acc.(properties := Override(acc.properties, s.properties),
         required := Override(acc.required, s.required),
         additionalProperties := Override(acc.additionalProperties, s.additionalProperties),
         items := Override(acc.items, s.items))
  }

  /** The copy loop as a left fold: later schemas override earlier ones. */
  function Carry(acc: Fragment, schemas: seq<Fragment>): (r: Fragment)
    requires Shaped(acc)
    requires forall i :: 0 <= i < |schemas| ==> Shaped(schemas[i])
    ensures Shaped(r)
    ensures r.typ == acc.typ && r.enum == acc.enum && r.description == acc.description
  {
    if |schemas| == 0 then acc
    else Absorb(Carry(acc, schemas[..|schemas| - 1]), schemas[|schemas| - 1])
  }

  /** The union fragment: `type` is the list of the alternatives' keywords,
      then the keys of the structured alternatives are copied over. */
  function MergeUnion(schemas: seq<Fragment>): (r: Fragment)
    requires forall i :: 0 <= i < |schemas| ==> schemas[i].typ.Single? && Shaped(schemas[i])
    ensures Shaped(r)
  {
    var result := Fragment(Multi(Tags(schemas)), None, None, None, None, None, None);
    Carry(result, Structured(schemas))
  }

  /** The texts of the description marks among the metadata, in order; any
      other metadata object is skipped (olinguito/schema.py:114). */
  function Marks(metadata: seq<Meta>): (marks: seq<string>)
    ensures |marks| <= |metadata|
  {
    if |metadata| == 0 then []
    else
      (if metadata[0].Description? then [metadata[0].text] else []) + Marks(metadata[1..])
  }

  /** There are exactly as many marks as description items. */
  lemma {:induction false} MarksCount(metadata: seq<Meta>)
    ensures |Marks(metadata)| == MarkCount(metadata)
    decreases |metadata|
  {
    if |metadata| > 0 {
      MarksCount(metadata[1..]);
      MarkCountStep(metadata);
    }
  }

  /** How many description marks the metadata holds. */
  function MarkCount(metadata: seq<Meta>): nat
  {
    multiset(seq(|metadata|, i requires 0 <= i < |metadata| => metadata[i].Description?))[true]
  }

  /** Counting marks one item at a time. */
  lemma MarkCountStep(metadata: seq<Meta>)
    requires |metadata| > 0
    ensures MarkCount(metadata)
              == (if metadata[0].Description? then 1 else 0) + MarkCount(metadata[1..])
  {
    var rest := metadata[1..];
    var kinds := seq(|metadata|, i requires 0 <= i < |metadata| => metadata[i].Description?);
    var restKinds := seq(|rest|, i requires 0 <= i < |rest| => rest[i].Description?);
    assert kinds == [metadata[0].Description?] + restKinds;
  }

  /** `{**mark.content, **schema}`: the description is added, but a key the
      base translation already has wins. */
  function Describe(schema: Fragment, text: string): (r: Fragment)
    requires Shaped(schema)
    ensures Shaped(r)
  {
    schema.(description := Override(Some(text), schema.description))
  }
}

=== FILE: schema_facts.dfy ===
/** Properties of the translator, one group per branch of `to_schema_type`.
    The loop branches are related to independent reference statements:
    per-element translations for records and unions, a "last one wins"
    reference for the union key merge, and the quantified form of the
    literal type check. The single-step branches (primitives, lists, bare
    lists, `Annotated`, unsupported descriptors) are stated directly in terms
    of the translation of their parts. */
module SchemaFacts {
  import opened Results
  import opened Descriptors
  import opened Schema

  // ---------------------------------------------------------------------
  // Primitives and unsupported descriptors
  // ---------------------------------------------------------------------

  /** Each primitive maps to exactly one keyword and no other key; distinct
      primitives get distinct keywords, never `object` or `array`. */
  lemma PrimitiveSpec(d: Desc)
    requires IsPrimitive(d)
    ensures Translate(d).Ok?
    ensures Translate(d).value == Leaf(Translate(d).value.typ.tag)
    ensures Translate(d).value.typ.tag !in {Object, Array}
    ensures forall e :: IsPrimitive(e) && e != d ==> Translate(e) != Translate(d)
    ensures d == Int ==> Translate(d).value.typ.tag == Integer
    ensures d == Float ==> Translate(d).value.typ.tag == Number
    ensures d == Str ==> Translate(d).value.typ.tag == String
    ensures d == Bool ==> Translate(d).value.typ.tag == Boolean
    ensures d == NoneType ==> Translate(d).value.typ.tag == Null
  {
  }

  /** A descriptor no branch recognises raises `TypeError`; there is no
      fallback fragment. */
  lemma UnsupportedRaises()
    ensures Translate(Unsupported) == Err(TypeError)
  {
  }

  // ---------------------------------------------------------------------
  // Literals
  // ---------------------------------------------------------------------

  /** All values share the Python type of the first, and that type is one of
      int, str, bool. */
  predicate Homogeneous(values: seq<LitVal>)
    requires |values| > 0
  {
    && TypeOf(values[0]) in {Int, Str, Bool}
    && forall i :: 0 <= i < |values| ==> TypeOf(values[i]) == TypeOf(values[0])
  }

  /** A literal translates exactly when it has values and they are
      homogeneous, to the fragment of their common type plus `enum` = the
      values in order; with values that are not homogeneous it raises
      `TypeError`, and with none `IndexError`. */
  lemma LiteralSpec(values: seq<LitVal>)
    ensures Translate(Literal(values)).Ok? <==> |values| > 0 && Homogeneous(values)
    ensures |values| == 0 ==> Translate(Literal(values)) == Err(IndexError)
    ensures |values| > 0 && Translate(Literal(values)).Err? ==>
              Translate(Literal(values)).error == TypeError
    ensures Translate(Literal(values)).Ok? ==>
              && |values| > 0
              && Translate(Literal(values)).value
                   == Translate(TypeOf(values[0])).value.(enum := Some(values))
  {
    if |values| == 0 {
      assert (set v | v in values :: TypeOf(v)) == {};
      return;
    }
    var vtypes := set v | v in values :: TypeOf(v);
    assert TypeOf(values[0]) in vtypes;
    if Homogeneous(values) {
      forall t | t in vtypes
        ensures t == TypeOf(values[0])
      {
        var v :| v in values && TypeOf(v) == t;
        var i :| 0 <= i < |values| && values[i] == v;
      }
      assert vtypes == {TypeOf(values[0])};
    }
    if vtypes <= {Int, Str, Bool} && |vtypes| <= 1 {
      SingletonSet(vtypes, TypeOf(values[0]));
      forall i | 0 <= i < |values|
        ensures TypeOf(values[i]) == TypeOf(values[0])
      {
        assert TypeOf(values[i]) in vtypes;
      }
      assert Homogeneous(values);
    }
  }

  /** `Literal[()]`: no value to read the type of, so `IndexError`. */
  lemma EmptyLiteralRaises()
    ensures Translate(Literal([])) == Err(IndexError)
  {
    LiteralSpec([]);
  }

  /** `True` is kept apart from `1`: a boolean literal is a boolean enum,
      and a literal holding both 1 and True is mixed. */
  lemma LiteralBoolIsNotInt()
    ensures Translate(Literal([LBool(true)]))
              == Ok(Leaf(Boolean).(enum := Some([LBool(true)])))
    ensures Translate(Literal([LInt(1), LBool(true)])) == Err(TypeError)
    ensures Translate(Literal([LStr("foo"), LInt(1), LBool(false)])) == Err(TypeError)
  {
    LiteralSpec([LBool(true)]);
    var oneAndTrue := [LInt(1), LBool(true)];
    LiteralSpec(oneAndTrue);
    assert TypeOf(oneAndTrue[1]) != TypeOf(oneAndTrue[0]);
    var mixed := [LStr("foo"), LInt(1), LBool(false)];
    LiteralSpec(mixed);
    assert TypeOf(mixed[1]) != TypeOf(mixed[0]);
  }

  // ---------------------------------------------------------------------
  // Lists
  // ---------------------------------------------------------------------

  /** A list is `array` with `items` = the element's fragment; an element
      error propagates unchanged. */
  lemma ListSpec(elem: Desc)
    requires WellFormed(elem)
    ensures Translate(List(elem)).Ok? <==> Translate(elem).Ok?
    ensures Translate(List(elem)).Err? ==> Translate(List(elem)).error == Translate(elem).error
    ensures Translate(List(elem)).Ok? ==>
              Translate(List(elem)).value == Leaf(Array).(items := Some(Translate(elem).value))
  {
  }

  /** `typing.List` without an element type has origin `list` but no
      argument to read, so the list arm raises `IndexError`. */
  lemma BareListRaises()
    ensures Translate(BareList) == Err(IndexError)
  {
  }

  // ---------------------------------------------------------------------
  // Records (and parameter lists)
  // ---------------------------------------------------------------------

  /** Field `i` is the first whose descriptor fails, failing with `e`. */
  predicate FirstFieldError(fields: seq<Field>, i: int, e: Error)
    requires forall k :: 0 <= k < |fields| ==> WellFormed(fields[k].desc)
  {
    && 0 <= i < |fields|
    && Translate(fields[i].desc) == Err(e)
    && forall j :: 0 <= j < i ==> Translate(fields[j].desc).Ok?
  }

  /** The field loop succeeds exactly when every field translates. */
  lemma {:induction false} FieldsOk(fields: seq<Field>)
    requires forall k :: 0 <= k < |fields| ==> WellFormed(fields[k].desc)
    ensures TranslateFields(fields).Ok? <==>
              forall k :: 0 <= k < |fields| ==> Translate(fields[k].desc).Ok?
    decreases |fields|
  {
    if |fields| > 0 {
      var tail := fields[1..];
      var head := Translate(fields[0].desc);
      var rest := TranslateFields(tail);
      assert TranslateFields(fields).Ok? <==> head.Ok? && rest.Ok?;
      FieldsOk(tail);
      if head.Ok? && rest.Ok? {
        forall k | 1 <= k < |fields|
          ensures Translate(fields[k].desc).Ok?
        {
          assert fields[k] == tail[k - 1];
        }
      } else if head.Ok? {
        var k :| 0 <= k < |tail| && Translate(tail[k].desc).Err?;
        assert fields[k + 1] == tail[k];
      }
    }
  }

  /** A successful field loop yields one property per field, in declared
      order, holding that field's name and fragment. */
  lemma FieldsValues(fields: seq<Field>)
    requires forall k :: 0 <= k < |fields| ==> WellFormed(fields[k].desc)
    requires TranslateFields(fields).Ok?
    ensures |TranslateFields(fields).value| == |fields|
    ensures forall k :: 0 <= k < |fields| ==>
              && Translate(fields[k].desc).Ok?
              && TranslateFields(fields).value[k]
                   == Property(fields[k].name, Translate(fields[k].desc).value)
  {
    assert |Names(TranslateFields(fields).value)| == |FieldNames(fields)|;
    forall k | 0 <= k < |fields|
      ensures Translate(fields[k].desc).Ok?
      ensures k < |TranslateFields(fields).value|
      ensures TranslateFields(fields).value[k]
                == Property(fields[k].name, Translate(fields[k].desc).value)
    {
      FieldAt(fields, k);
    }
  }

  /** Property `k` of a successful field loop is field `k`'s. */
  lemma {:induction false} FieldAt(fields: seq<Field>, k: nat)
    requires forall i :: 0 <= i < |fields| ==> WellFormed(fields[i].desc)
    requires TranslateFields(fields).Ok? && k < |fields|
    ensures Translate(fields[k].desc).Ok?
    ensures k < |TranslateFields(fields).value|
    ensures TranslateFields(fields).value[k]
              == Property(fields[k].name, Translate(fields[k].desc).value)
    decreases k
  {
    var tail := fields[1..];
    var head := Translate(fields[0].desc);
    var rest := TranslateFields(tail);
    assert head.Ok? && rest.Ok?;
    assert TranslateFields(fields).value == [Property(fields[0].name, head.value)] + rest.value;
    if k > 0 {
      FieldAt(tail, k - 1);
      assert tail[k - 1] == fields[k];
    }
  }

  /** A failing field loop fails with the first failing field's error. */
  lemma {:induction false} FieldsErr(fields: seq<Field>)
    requires forall k :: 0 <= k < |fields| ==> WellFormed(fields[k].desc)
    ensures TranslateFields(fields).Err? ==>
              exists i :: FirstFieldError(fields, i, TranslateFields(fields).error)
    decreases |fields|
  {
    if |fields| > 0 {
      var tail := fields[1..];
      FieldsErr(tail);
      if Translate(fields[0].desc).Err? {
        assert FirstFieldError(fields, 0, TranslateFields(fields).error);
      } else if TranslateFields(tail).Err? {
        var i :| FirstFieldError(tail, i, TranslateFields(tail).error);
        forall j | 0 <= j < i + 1
          ensures Translate(fields[j].desc).Ok?
        {
          if j > 0 {
            assert fields[j] == tail[j - 1];
          }
        }
        assert fields[i + 1] == tail[i];
        assert FirstFieldError(fields, i + 1, TranslateFields(fields).error);
      }
    }
  }

  /** The field loop succeeds exactly when every field translates; it then
      yields one property per field, in declared order, holding that field's
      fragment; otherwise it fails with the first failing field's error. */
  lemma FieldsSpec(fields: seq<Field>)
    requires forall k :: 0 <= k < |fields| ==> WellFormed(fields[k].desc)
    ensures TranslateFields(fields).Ok? <==>
              forall k :: 0 <= k < |fields| ==> Translate(fields[k].desc).Ok?
    ensures TranslateFields(fields).Ok? ==>
              && |TranslateFields(fields).value| == |fields|
              && forall k :: 0 <= k < |fields| ==>
                   TranslateFields(fields).value[k]
                     == Property(fields[k].name, Translate(fields[k].desc).value)
    ensures TranslateFields(fields).Err? ==>
              exists i :: FirstFieldError(fields, i, TranslateFields(fields).error)
  {
    FieldsOk(fields);
    if TranslateFields(fields).Ok? {
      FieldsValues(fields);
    }
    FieldsErr(fields);
  }

  /** A record is `object` with one property per field in declared order,
      each holding the translation of the field's type with `Annotated`
      stripped; `required` = all field names in that order,
      `additionalProperties` false and no other key; it fails with the first
      failing field's error. */
  lemma RecordSpec(fields: seq<Field>)
    requires WellFormed(Record(fields))
    ensures forall k :: 0 <= k < |fields| ==> WellFormed(StripAnnotations(fields[k].desc))
    ensures Translate(Record(fields)).Ok? <==>
              forall k :: 0 <= k < |fields| ==> Translate(StripAnnotations(fields[k].desc)).Ok?
    ensures Translate(Record(fields)).Err? ==>
              exists i :: FirstFieldError(StripFields(fields), i, Translate(Record(fields)).error)
    ensures Translate(Record(fields)).Ok? ==>
              var f := Translate(Record(fields)).value;
              && f.typ == Single(Object)
              && f.required == Some(FieldNames(fields))
              && |f.required.value| == |fields|
              && f.additionalProperties == Some(false)
              && f.items.None? && f.description.None? && f.enum.None?
              && f.properties.Some?
              && |f.properties.value.entries| == |fields|
              && forall k :: 0 <= k < |fields| ==>
                   f.properties.value.entries[k]
                     == Property(fields[k].name, Translate(StripAnnotations(fields[k].desc)).value)
  {
    var stripped := StripFields(fields);
    StripFieldsWellFormed(fields);
    FieldsSpec(stripped);
  }

  /** Field types are read as type hints, which drop `Annotated`: wrapping a
      field's type in `Annotated`, with any metadata (two description marks
      included), leaves the record's translation unchanged. */
  lemma FieldMarksIgnored(fields: seq<Field>, k: nat, metadata: seq<Meta>)
    requires WellFormed(Record(fields)) && k < |fields|
    ensures WellFormed(Record(fields[k := Field(fields[k].name, Annotated(fields[k].desc, metadata))]))
    ensures Translate(Record(fields[k := Field(fields[k].name, Annotated(fields[k].desc, metadata))]))
              == Translate(Record(fields))
  {
    var marked := fields[k := Field(fields[k].name, Annotated(fields[k].desc, metadata))];
    MarkedFieldWellFormed(fields, k, metadata);
    MarkedFieldStrips(fields, k, metadata);
    SameHintsSameRecord(marked, fields);
  }

  /** A record's translation depends on its fields only through the type
      hints `get_type_hints` returns for them. */
  lemma SameHintsSameRecord(f1: seq<Field>, f2: seq<Field>)
    requires WellFormed(Record(f1)) && WellFormed(Record(f2))
    requires StripFields(f1) == StripFields(f2)
    ensures Translate(Record(f1)) == Translate(Record(f2))
  {
  }

  // ---------------------------------------------------------------------
  // Unions
  // ---------------------------------------------------------------------

  /** Why an alternative stops the union loop, if it does: its own error,
      or `TypeError` when its `type` is already a list. */
  function AlternativeError(r: Result<Fragment>): Option<Error>
  {
    if r.Err? then Some(r.error)
    else if r.value.typ.Multi? then Some(TypeError)
    else None
  }

  /** Alternative `i` is the first that stops the union loop, raising `e`. */
  predicate FirstAlternativeError(alts: seq<Desc>, i: int, e: Error)
    requires forall k :: 0 <= k < |alts| ==> WellFormed(alts[k])
  {
    && 0 <= i < |alts|
    && AlternativeError(Translate(alts[i])) == Some(e)
    && forall j :: 0 <= j < i ==> AlternativeError(Translate(alts[j])).None?
  }

  /** The alternatives' loop succeeds exactly when no alternative stops it. */
  lemma {:induction false} AlternativesOk(alts: seq<Desc>)
    requires forall k :: 0 <= k < |alts| ==> WellFormed(alts[k])
    ensures TranslateAlternatives(alts).Ok? <==>
              forall k :: 0 <= k < |alts| ==> AlternativeError(Translate(alts[k])).None?
    decreases |alts|
  {
    if |alts| > 0 {
      var tail := alts[1..];
      var head := AlternativeError(Translate(alts[0]));
      var rest := TranslateAlternatives(tail);
      assert TranslateAlternatives(alts).Ok? <==> head.None? && rest.Ok?;
      AlternativesOk(tail);
      if head.None? && rest.Ok? {
        forall k | 1 <= k < |alts|
          ensures AlternativeError(Translate(alts[k])).None?
        {
          assert alts[k] == tail[k - 1];
        }
      } else if head.None? {
        var k :| 0 <= k < |tail| && AlternativeError(Translate(tail[k])).Some?;
        assert alts[k + 1] == tail[k];
      }
    }
  }

  /** A successful alternatives' loop yields each alternative's fragment, in
      order. */
  lemma {:induction false} AlternativesValues(alts: seq<Desc>)
    requires forall k :: 0 <= k < |alts| ==> WellFormed(alts[k])
    requires TranslateAlternatives(alts).Ok?
    ensures |TranslateAlternatives(alts).value| == |alts|
    ensures forall k :: 0 <= k < |alts| ==>
              Translate(alts[k]) == Ok(TranslateAlternatives(alts).value[k])
    decreases |alts|
  {
    if |alts| > 0 {
      var tail := alts[1..];
      var head := Translate(alts[0]);
      var rest := TranslateAlternatives(tail);
      assert head.Ok? && head.value.typ.Single? && rest.Ok?;
      AlternativesValues(tail);
      var r := TranslateAlternatives(alts).value;
      assert r == [head.value] + rest.value;
      forall k | 1 <= k < |alts|
        ensures Translate(alts[k]) == Ok(r[k])
      {
        assert alts[k] == tail[k - 1];
        assert r[k] == rest.value[k - 1];
      }
    }
  }

  /** A failing alternatives' loop fails with what the first stopping
      alternative raises. */
  lemma {:induction false} AlternativesErr(alts: seq<Desc>)
    requires forall k :: 0 <= k < |alts| ==> WellFormed(alts[k])
    ensures TranslateAlternatives(alts).Err? ==>
              exists i :: FirstAlternativeError(alts, i, TranslateAlternatives(alts).error)
    decreases |alts|
  {
    if |alts| > 0 {
      var tail := alts[1..];
      var head := AlternativeError(Translate(alts[0]));
      var rest := TranslateAlternatives(tail);
      assert head.Some? ==> TranslateAlternatives(alts) == Err(head.value);
      assert head.None? ==> TranslateAlternatives(alts).Err? == rest.Err?;
      assert head.None? && rest.Err? ==> TranslateAlternatives(alts) == Err(rest.error);
      AlternativesErr(tail);
      if head.Some? {
        assert FirstAlternativeError(alts, 0, TranslateAlternatives(alts).error);
      } else if rest.Err? {
        var i :| FirstAlternativeError(tail, i, rest.error);
        forall j | 0 <= j < i + 1
          ensures AlternativeError(Translate(alts[j])).None?
        {
          if j > 0 {
            assert alts[j] == tail[j - 1];
          }
        }
        assert alts[i + 1] == tail[i];
        assert FirstAlternativeError(alts, i + 1, TranslateAlternatives(alts).error);
      }
    }
  }

  /** The alternatives' loop succeeds exactly when no alternative stops it;
      it then yields each alternative's fragment in order; otherwise it fails
      with what the first stopping alternative raises. */
  lemma AlternativesSpec(alts: seq<Desc>)
    requires forall k :: 0 <= k < |alts| ==> WellFormed(alts[k])
    ensures TranslateAlternatives(alts).Ok? <==>
              forall k :: 0 <= k < |alts| ==> AlternativeError(Translate(alts[k])).None?
    ensures TranslateAlternatives(alts).Ok? ==>
              && |TranslateAlternatives(alts).value| == |alts|
              && forall k :: 0 <= k < |alts| ==>
                   Translate(alts[k]) == Ok(TranslateAlternatives(alts).value[k])
    ensures TranslateAlternatives(alts).Err? ==>
              exists i :: FirstAlternativeError(alts, i, TranslateAlternatives(alts).error)
  {
    AlternativesOk(alts);
    if TranslateAlternatives(alts).Ok? {
      AlternativesValues(alts);
    }
    AlternativesErr(alts);
  }

  /** The four keys the union merge copies, as functions of a fragment. */
  function PropertiesOf(f: Fragment): Option<PropertyMap> { f.properties }
  function RequiredOf(f: Fragment): Option<seq<string>> { f.required }
  function AdditionalOf(f: Fragment): Option<bool> { f.additionalProperties }
  function ItemsOf(f: Fragment): Option<Fragment> { f.items }

  /** The reference for the union key merge: `r` is the `key` of the last
      fragment that has one, or absent when none has. */
  ghost predicate LastWins<T>(frags: seq<Fragment>, key: Fragment -> Option<T>, r: Option<T>)
  {
    if exists i :: 0 <= i < |frags| && key(frags[i]).Some? then
      exists i :: && 0 <= i < |frags|
                  && key(frags[i]).Some?
                  && r == key(frags[i])
                  && forall j :: i < j < |frags| ==> key(frags[j]).None?
    else r.None?
  }

  /** Appending one fragment to the merged ones: its key overrides when
      present, otherwise the previous winner stands. */
  lemma LastWinsStep<T>(frags: seq<Fragment>, x: Fragment, key: Fragment -> Option<T>, prev: Option<T>)
    requires LastWins(frags, key, prev)
    ensures LastWins(frags + [x], key, Override(prev, key(x)))
  {
    var all := frags + [x];
    assert forall k :: 0 <= k < |frags| ==> all[k] == frags[k];
    if key(x).Some? {
      assert all[|frags|] == x;
    } else if exists i :: 0 <= i < |frags| && key(frags[i]).Some? {
      var i :| && 0 <= i < |frags|
               && key(frags[i]).Some?
               && prev == key(frags[i])
               && forall j :: i < j < |frags| ==> key(frags[j]).None?;
      assert all[i] == frags[i];
    } else {
      forall i | 0 <= i < |all|
        ensures key(all[i]).None?
      {
        if i < |frags| {
          assert all[i] == frags[i];
        }
      }
    }
  }

  /** `Structured` is the order-preserving filter: it distributes over
      concatenation and keeps a single alternative exactly when it is
      structured. */
  lemma {:induction false} StructuredFilter(a: seq<Fragment>, b: seq<Fragment>)
    ensures Structured(a + b) == Structured(a) + Structured(b)
    ensures |b| == 1 ==> Structured(b) == (if IsStructured(b[0]) then b else [])
    decreases |b|
  {
    if |b| > 0 {
      var init := b[..|b| - 1];
      var x := b[|b| - 1];
      assert (a + b)[..|a + b| - 1] == a + init;
      assert (a + b)[|a + b| - 1] == x;
      StructuredFilter(a, init);
      if |b| == 1 {
        assert init == [];
      }
    } else {
      assert a + b == a;
    }
  }

  /** The structured alternatives keep the shape invariant. */
  lemma StructuredShaped(schemas: seq<Fragment>)
    requires forall k :: 0 <= k < |schemas| ==> Shaped(schemas[k])
    ensures forall k :: 0 <= k < |Structured(schemas)| ==> Shaped(Structured(schemas)[k])
  {
    forall k | 0 <= k < |Structured(schemas)|
      ensures Shaped(Structured(schemas)[k])
    {
      var j :| 0 <= j < |schemas| && schemas[j] == Structured(schemas)[k];
    }
  }

  /** One more alternative overrides each copied key it has; an alternative
      that is not structured has none of them, so it changes nothing. */
  lemma CarryStep(acc: Fragment, init: seq<Fragment>, x: Fragment)
    requires Shaped(acc) && Shaped(x)
    requires forall k :: 0 <= k < |init| ==> Shaped(init[k])
    ensures forall k :: 0 <= k < |init + [x]| ==> Shaped((init + [x])[k])
    ensures var prev := Carry(acc, Structured(init));
            var r := Carry(acc, Structured(init + [x]));
            && r.properties == Override(prev.properties, x.properties)
            && r.required == Override(prev.required, x.required)
            && r.additionalProperties == Override(prev.additionalProperties, x.additionalProperties)
            && r.items == Override(prev.items, x.items)
  {
    var all := init + [x];
    assert all[..|all| - 1] == init;
    assert all[|all| - 1] == x;
    StructuredShaped(init);
    StructuredShaped(all);
    var s0 := Structured(init);
    var prev := Carry(acc, s0);
    if IsStructured(x) {
      var s := s0 + [x];
      assert Structured(all) == s;
      assert s[..|s| - 1] == s0;
      assert Carry(acc, s) == Absorb(prev, x);
    } else {
      assert Structured(all) == s0;
    }
  }

  /** Merging the structured alternatives into `acc` gives each copied key
      the value of the last alternative (of all of them) that has it, or
      none when no alternative has it. */
  lemma {:induction false} CarryLastWins(acc: Fragment, schemas: seq<Fragment>)
    requires Shaped(acc)
    requires acc.properties.None? && acc.required.None?
    requires acc.additionalProperties.None? && acc.items.None?
    requires forall k :: 0 <= k < |schemas| ==> Shaped(schemas[k])
    ensures var r := Carry(acc, Structured(schemas));
            && LastWins(schemas, PropertiesOf, r.properties)
            && LastWins(schemas, RequiredOf, r.required)
            && LastWins(schemas, AdditionalOf, r.additionalProperties)
            && LastWins(schemas, ItemsOf, r.items)
    decreases |schemas|
  {
    StructuredShaped(schemas);
    if |schemas| > 0 {
      var init := schemas[..|schemas| - 1];
      var x := schemas[|schemas| - 1];
      assert schemas == init + [x];
      CarryLastWins(acc, init);
      CarryStep(acc, init, x);
      var prev := Carry(acc, Structured(init));
      LastWinsStep(init, x, PropertiesOf, prev.properties);
      LastWinsStep(init, x, RequiredOf, prev.required);
      LastWinsStep(init, x, AdditionalOf, prev.additionalProperties);
      LastWinsStep(init, x, ItemsOf, prev.items);
    }
  }

  /** The union fragment of translated alternatives: `type` lists their
      keywords in order, one per alternative, duplicates kept; `enum` and
      `description` are never carried over; `properties`, `required`,
      `additionalProperties` and `items` come from the last alternative that
      has each. */
  lemma MergeUnionSpec(schemas: seq<Fragment>)
    requires forall k :: 0 <= k < |schemas| ==> schemas[k].typ.Single? && Shaped(schemas[k])
    ensures var r := MergeUnion(schemas);
            && r.typ.Multi?
            && |r.typ.tags| == |schemas|
            && (forall k :: 0 <= k < |schemas| ==> r.typ.tags[k] == schemas[k].typ.tag)
            && r.enum.None? && r.description.None?
            && LastWins(schemas, PropertiesOf, r.properties)
            && LastWins(schemas, RequiredOf, r.required)
            && LastWins(schemas, AdditionalOf, r.additionalProperties)
            && LastWins(schemas, ItemsOf, r.items)
  {
    var result := Fragment(Multi(Tags(schemas)), None, None, None, None, None, None);
    CarryLastWins(result, schemas);
  }

  /** A union succeeds exactly when every alternative translates to a single
      keyword, and is then the merge of the alternatives' fragments; it fails
      with what the first offending alternative raises. */
  lemma UnionSpec(alts: seq<Desc>)
    requires WellFormed(Union(alts))
    ensures Translate(Union(alts)).Ok? <==>
              forall k :: 0 <= k < |alts| ==>
                Translate(alts[k]).Ok? && Translate(alts[k]).value.typ.Single?
    ensures Translate(Union(alts)).Err? ==>
              exists i :: FirstAlternativeError(alts, i, Translate(Union(alts)).error)
    ensures Translate(Union(alts)).Ok? ==>
              var r := Translate(Union(alts)).value;
              && r.typ.Multi?
              && |r.typ.tags| == |alts|
              && (forall k :: 0 <= k < |alts| ==> r.typ.tags[k] == Translate(alts[k]).value.typ.tag)
              && r.enum.None? && r.description.None?
    ensures Translate(Union(alts)).Ok? ==>
              var r := Translate(Union(alts)).value;
              var frags := TranslateAlternatives(alts).value;
              && (forall k :: 0 <= k < |alts| ==> Translate(alts[k]) == Ok(frags[k]))
              && LastWins(frags, PropertiesOf, r.properties)
              && LastWins(frags, RequiredOf, r.required)
              && LastWins(frags, AdditionalOf, r.additionalProperties)
              && LastWins(frags, ItemsOf, r.items)
  {
    AlternativesSpec(alts);
    if TranslateAlternatives(alts).Ok? {
      MergeUnionSpec(TranslateAlternatives(alts).value);
    }
  }

  /** Keywords are neither deduplicated nor reordered: the descriptor
      `Union([Int, Int])` lists `integer` twice, and so does
      `Annotated[int, m] | int`, whose two alternatives differ for Python
      but translate to the same keyword. */
  lemma UnionKeepsDuplicates()
    ensures Translate(Union([Int, Int])).Ok?
    ensures Translate(Union([Int, Int])).value.typ == Multi([Integer, Integer])
    ensures Translate(Union([Annotated(Int, [OtherMeta]), Int])).Ok?
    ensures Translate(Union([Annotated(Int, [OtherMeta]), Int])).value.typ
              == Multi([Integer, Integer])
    ensures Translate(Union([Str, NoneType])).Ok?
    ensures Translate(Union([Str, NoneType])).value.typ == Multi([String, Null])
  {
    TwoAlternatives(Int, Int);
    AnnotatedDuplicate(Int, [OtherMeta]);
    TwoAlternatives(Str, NoneType);
  }

  /** A primitive annotated without a description mark, followed by the same
      primitive, gives that primitive's keyword twice. */
  lemma AnnotatedDuplicate(t: Desc, metadata: seq<Meta>)
    requires IsPrimitive(t) && |Marks(metadata)| == 0
    ensures Translate(Union([Annotated(t, metadata), t])).Ok?
    ensures Translate(Union([Annotated(t, metadata), t])).value.typ
              == Multi([PrimitiveTag(t), PrimitiveTag(t)])
  {
    var annotated, plain := [Annotated(t, metadata), t], [t, t];
    assert Translate(annotated[0]) == Translate(t);
    SameTranslationsSameAlternatives(annotated, plain);
    assert Translate(Union(annotated)) == Translate(Union(plain));
    TwoAlternatives(t, t);
  }



  /** A union of two primitives lists both keywords, in order. */
  lemma TwoAlternatives(a: Desc, b: Desc)
    requires IsPrimitive(a) && IsPrimitive(b)
    ensures Translate(Union([a, b])).Ok?
    ensures Translate(Union([a, b])).value.typ == Multi([PrimitiveTag(a), PrimitiveTag(b)])
  {
    var alts := [a, b];
    assert Translate(alts[0]) == Ok(Leaf(PrimitiveTag(a)));
    assert Translate(alts[1]) == Ok(Leaf(PrimitiveTag(b)));
    UnionSpec(alts);
    var tags := Translate(Union(alts)).value.typ.tags;
    assert tags[0] == PrimitiveTag(a) && tags[1] == PrimitiveTag(b);
    assert tags == [PrimitiveTag(a), PrimitiveTag(b)];
  }

  /** The union loop reads each alternative only through its translation:
      alternatives translating alike, position by position, give the same
      result. */
  lemma {:induction false} SameTranslationsSameAlternatives(alts1: seq<Desc>, alts2: seq<Desc>)
    requires forall i :: 0 <= i < |alts1| ==> WellFormed(alts1[i])
    requires forall i :: 0 <= i < |alts2| ==> WellFormed(alts2[i])
    requires |alts1| == |alts2|
    requires forall i :: 0 <= i < |alts1| ==> Translate(alts1[i]) == Translate(alts2[i])
    ensures TranslateAlternatives(alts1) == TranslateAlternatives(alts2)
    decreases |alts1|
  {
    if |alts1| > 0 {
      var tail1, tail2 := alts1[1..], alts2[1..];
      forall i | 0 <= i < |tail1|
        ensures Translate(tail1[i]) == Translate(tail2[i])
      {
        assert tail1[i] == alts1[i + 1] && tail2[i] == alts2[i + 1];
      }
      SameTranslationsSameAlternatives(tail1, tail2);
    }
  }



  /** A union alternative that is itself a (translatable) union has a list
      `type`, so the outer union raises `TypeError`. */
  lemma NestedUnionRaises(a: Desc, inner: seq<Desc>)
    requires IsPrimitive(a) && WellFormed(Union(inner))
    requires Translate(Union(inner)).Ok?
    ensures Translate(Union([a, Union(inner)])) == Err(TypeError)
  {
    var alts := [a, Union(inner)];
    assert Translate(alts[0]) == Ok(Leaf(PrimitiveTag(a)));
    assert Translate(alts[1]).value.typ.Multi?;
    AlternativesErr(alts);
    AlternativesOk(alts);
    var i :| FirstAlternativeError(alts, i, TranslateAlternatives(alts).error);
    assert i == 1;
  }

  // ---------------------------------------------------------------------
  // Annotated descriptors
  // ---------------------------------------------------------------------

  /** More than one description mark raises `ValueError` before the base is
      looked at; exactly one adds the description to the base fragment, the
      base's own keys winning; none gives the base fragment unchanged. */
  lemma AnnotatedSpec(base: Desc, metadata: seq<Meta>)
    requires WellFormed(base)
    ensures |Marks(metadata)| > 1 ==> Translate(Annotated(base, metadata)) == Err(ValueError)
    ensures |Marks(metadata)| == 0 ==> Translate(Annotated(base, metadata)) == Translate(base)
    ensures |Marks(metadata)| == 1 ==>
              && (Translate(Annotated(base, metadata)).Ok? <==> Translate(base).Ok?)
              && (Translate(base).Err? ==> Translate(Annotated(base, metadata)) == Translate(base))
    ensures |Marks(metadata)| == 1 && Translate(base).Ok? ==>
              var b := Translate(base).value;
              var r := Translate(Annotated(base, metadata)).value;
              && r.description == (if b.description.Some? then b.description else Some(Marks(metadata)[0]))
              && r.(description := None) == b.(description := None)
  {
    var marks := Marks(metadata);
    var t := Translate(Annotated(base, metadata));
    if |marks| == 1 {
      if Translate(base).Ok? {
        assert t == Ok(Describe(Translate(base).value, marks[0]));
      } else {
        assert t == Translate(base);
      }
    }
  }

  /** The marks of concatenated metadata are the concatenated marks. */
  lemma {:induction false} MarksAppend(a: seq<Meta>, b: seq<Meta>)
    ensures Marks(a + b) == Marks(a) + Marks(b)
    decreases |a|
  {
    if |a| == 0 {
      assert a + b == b;
    } else {
      assert (a + b)[0] == a[0];
      assert (a + b)[1..] == a[1..] + b;
      MarksAppend(a[1..], b);
    }
  }

  /** Marks are exactly the description texts, in order: a metadata item
      that is not a description contributes nothing. */
  lemma {:induction false} MarksSpec(metadata: seq<Meta>)
    ensures forall t :: t in Marks(metadata) <==> Description(t) in metadata
    decreases |metadata|
  {
    if |metadata| > 0 {
      MarksSpec(metadata[1..]);
      assert metadata == [metadata[0]] + metadata[1..];
    }
  }

  /** Non-description metadata is ignored: inserting it anywhere leaves the
      translation unchanged. */
  lemma OtherMetaIgnored(base: Desc, metadata: seq<Meta>, k: nat)
    requires WellFormed(base)
    requires k <= |metadata|
    ensures Translate(Annotated(base, metadata[..k] + [OtherMeta] + metadata[k..]))
              == Translate(Annotated(base, metadata))
  {
    OtherMetaNoMark(metadata, k);
    SameMarksSameTranslation(base, metadata[..k] + [OtherMeta] + metadata[k..], metadata);
  }

  /** Inserting non-description metadata adds no mark. */
  lemma OtherMetaNoMark(metadata: seq<Meta>, k: nat)
    requires k <= |metadata|
    ensures Marks(metadata[..k] + [OtherMeta] + metadata[k..]) == Marks(metadata)
  {
    var before, after := metadata[..k], metadata[k..];
    var skipped := [OtherMeta] + after;
    assert Marks(skipped) == Marks(after) by {
      assert skipped[0] == OtherMeta && skipped[1..] == after;
    }
    assert before + [OtherMeta] + after == before + skipped;
    MarksAppend(before, skipped);
    MarksAppend(before, after);
    assert before + after == metadata;
  }

  /** The `Annotated` arm reads its metadata only through the marks. */
  lemma SameMarksSameTranslation(base: Desc, m1: seq<Meta>, m2: seq<Meta>)
    requires WellFormed(base) && Marks(m1) == Marks(m2)
    ensures Translate(Annotated(base, m1)) == Translate(Annotated(base, m2))
  {
  }

  /** `Annotated[int, description("foo"), "bar"]` is `{"type": "integer",
      "description": "foo"}`; a second description raises `ValueError`. */
  lemma AnnotatedExamples()
    ensures Translate(Annotated(Int, [Description("foo"), OtherMeta]))
              == Ok(Leaf(Integer).(description := Some("foo")))
    ensures Translate(Annotated(Int, [OtherMeta])) == Ok(Leaf(Integer))
    ensures Translate(Annotated(Int, [Description("a"), Description("b")])) == Err(ValueError)
  {
    assert Marks([Description("foo"), OtherMeta]) == ["foo"];
    assert Marks([OtherMeta]) == [];
    assert Marks([Description("a"), Description("b")]) == ["a", "b"];
  }

  // ---------------------------------------------------------------------
  // Type keywords and structural keys
  // ---------------------------------------------------------------------

  /** The keywords of a `type` value: the one keyword, or the list. */
  function Keywords(t: TypeField): (tags: seq<Tag>)
    ensures t.Single? ==> tags == [t.tag]
    ensures t.Multi? ==> tags == t.tags
  {
    match t
    case Single(tag) => [tag]
    case Multi(tags) => tags
  }

  /** When each fragment has `key` exactly when its keyword is `tag`, the
      last-wins merge of `key` is present exactly when `tag` is among the
      keywords. */
  lemma MergedKeyFollowsTag<T>(frags: seq<Fragment>, tags: seq<Tag>, key: Fragment -> Option<T>,
                               tag: Tag, r: Option<T>)
    requires |tags| == |frags|
    requires forall k :: 0 <= k < |frags| ==> (key(frags[k]).Some? <==> tags[k] == tag)
    requires LastWins(frags, key, r)
    ensures r.Some? <==> tag in tags
  {
    if r.Some? {
      var i :| 0 <= i < |frags| && key(frags[i]).Some?;
      assert tags[i] == tag;
    }
    if tag in tags {
      var i :| 0 <= i < |tags| && tags[i] == tag;
      assert key(frags[i]).Some?;
    }
  }

  /** Every fragment the translator returns carries `items` exactly when
      `array` is among its type keywords, and `properties` exactly when
      `object` is: arrays and objects keep their structure through unions
      and descriptions. */
  lemma {:induction false} KeysFollowType(d: Desc)
    requires WellFormed(d) && Translate(d).Ok?
    ensures var f := Translate(d).value;
            && (f.items.Some? <==> Array in Keywords(f.typ))
            && (f.properties.Some? <==> Object in Keywords(f.typ))
    decreases d
  {
    match d
    case Literal(values) =>
      LiteralSpec(values);
      assert TypeOf(values[0]) in {Int, Str, Bool};
    case Union(alts) =>
      AlternativesOk(alts);
      AlternativesValues(alts);
      var frags := TranslateAlternatives(alts).value;
      forall k | 0 <= k < |alts|
        ensures frags[k].items.Some? <==> frags[k].typ.tag == Array
        ensures frags[k].properties.Some? <==> frags[k].typ.tag == Object
      {
        KeysFollowType(alts[k]);
      }
      UnionTypeKeys(frags);
    case Annotated(base, metadata) =>
      KeysFollowType(base);
    case _ =>
  }

  /** The union merge keeps the tie between the structural keys and the
      `array` and `object` keywords. */
  lemma UnionTypeKeys(frags: seq<Fragment>)
    requires forall k :: 0 <= k < |frags| ==> frags[k].typ.Single? && Shaped(frags[k])
    requires forall k :: 0 <= k < |frags| ==> (frags[k].items.Some? <==> frags[k].typ.tag == Array)
    requires forall k :: 0 <= k < |frags| ==> (frags[k].properties.Some? <==> frags[k].typ.tag == Object)
    ensures var f := MergeUnion(frags);
            && (f.items.Some? <==> Array in Keywords(f.typ))
            && (f.properties.Some? <==> Object in Keywords(f.typ))
  {
    var f := MergeUnion(frags);
    MergeUnionSpec(frags);
    MergedKeyFollowsTag(frags, f.typ.tags, ItemsOf, Array, f.items);
    MergedKeyFollowsTag(frags, f.typ.tags, PropertiesOf, Object, f.properties);
  }
}
